=== FILE: README.md ===
# MMLotteryAutomation submission engine in Dafny

This project models the submission engine of MMLotteryAutomation
(`Automation.ts`). The engine fills in a multi-page ticket-lottery entry
form in a browser, in two variants: overseas (`completeOverseaLottery`) and
inland (`completeInlandLottery`). It walks the pages in a fixed order. Two
things are checked at each stage:

- the navigation label and the section heading;
- the form fields, which are derived from the application record (birth
  date, postal code, phone numbers, peer name).

The inland variant also waits for the postal-address search to fill the
address. Both variants then solve the image captcha and submit. A bounded
retry controller wraps the captcha closure, and the engine finishes by
assembling the accepted-application summary.

The browser, the captcha solver, its cache and the random draws are oracles:

- a captcha fetch is a `Captcha.Shot`;
- the page read in a turn of the captcha stage is a `Captcha.Page`;
- each stage's page reads are fields of `Flow.OverseaSite` / `Flow.InlandSite`;
- the address-wait rounds are a function `nat -> Address.PollRead`.

The modules are:

| module | file | what it holds |
|---|---|---|
| `Errors` | errors.dfy | `Option`, `Result`, and the closed exception variant `Failure` (LotteryError, CaptchaError, a bare Error, the runtime's TypeError) |
| `JsText` | text.dfy | the JavaScript string semantics the engine relies on: `split` on one character, `join`, `trim`, string-pattern `replace` (first occurrence only), `slice` with negative indices, `/^\d+$/`, decimal rendering |
| `Fields` | fields.dfy | `splitDate`, `splitZipcode`, `parsePhoneNumber`, `parsePhoneFull`, and the peer-name split |
| `Checkpoints` | checkpoints.dfy | label normalisation, the navigation/heading assertions, the credit-card heading poll, and the guarded show and seat clicks |
| `Retry` | retry.dfy | `retry`: a function for the loop (`RetrySpec`), the loop itself as a method, and lemmas |
| `Summary` | summary.dfy | `getLotterySummery` over an abstract DOM tree, with the span-ignoring text fold |
| `Captcha` | captcha.dfy | `solveCaptchaAndSubmit`: the inner loop of ten rounds, the retried closure, and the outer loop of two turns, as functions and as methods proved equal to them |
| `Address` | address.dfy | the address wait with its reclick schedule, and the address-line fallbacks |
| `Flow` | flow.dfy | the two procedures as stage sequences, as functions and as methods, with end-to-end lemmas |

Each imperative part of the source is modelled in two forms: a method that
follows the code loop by loop, and a function that specifies it. The methods
are `Retry.RunRetry`, `Summary.TextContentIgnoringSpans`,
`Summary.CollectContent`, `Summary.ExtractSummary`,
`Checkpoints.AwaitCheckpoint`, `Address.AwaitAddress`, `Captcha.PlayRound`,
`Captcha.SolveOnce`, `Captcha.SolveCaptchaAndSubmit`, `Flow.CompleteOversea`
and `Flow.CompleteInland`. Each method's postcondition equates its result
with the specifying function, and the lemmas state what the source promises
about those functions. The exception is `Checkpoints.AwaitCheckpoint`,
whose postcondition states the first-match and failure properties directly,
with no specifying function.

The captcha closure captures four variables and updates them:
`captcha_solve_tries`, `captcha_submit_tries`, `cache` and `cache_url`. It is
modelled as a function from that captured state (`Captcha.Tries`) to one
call's result and the state after the call (`Retry.Step`). `retry` is
generic over such a task.

### Consequences of the code as written

The model follows the code as written. Three consequences are easy to miss;
the first and the third look unintended.

- **Every banner counts as a captcha rejection.** The banner test at
  `Automation.ts:343` compares the text with the Japanese message, then `||`
  a bare non-empty English string, so it is always true. Any non-empty
  error text after a submission is therefore treated as a captcha
  rejection and leads to the next turn, and the "Failed to submit lottery"
  branch (`Automation.ts:351`) is unreachable. The apparent intent is to
  compare the text with either message, so that any other banner text ends
  the run with that error.
- **A cache alert is sent on every rejected turn whose answer came from the
  cache.** The alert at `Automation.ts:345-347` is guarded by `cache`
  alone, so when both turns are rejected on cached answers there are two
  alerts (`Captcha.CachedAnswerRejectedTwice`). A turn rejected on a fresh
  answer sends none.
- **The address timeout is a bare Error.** The code throws a bare `Error`
  (`Automation.ts:571`). Every other failure the engine reports about the
  site is a LotteryError or a CaptchaError: the checkpoint assertions
  construct a LotteryError directly (`Automation.ts:18`, `Automation.ts:37`)
  and the rest go through `throwLotteryError` or `throwCaptchaError`. The
  only other exceptions are the TypeErrors of the show and seat clicks
  (`Automation.ts:97`, `Automation.ts:105`). The apparent intent is a
  LotteryError here too, as for the rejected postal code at
  `Automation.ts:558`.

## Model

| member | source | states |
|---|---|---|
| `JsText.CountPositive` | Automation.ts:83-84 | a character occurs in a string iff its count is positive |
| `JsText.CountAppend` | Automation.ts:83-84 | counting is additive over concatenation |
| `JsText.Split` | Automation.ts:83 | `split` on one character yields one piece more than there are separators; no piece holds the separator; joining the pieces with the separator gives the input back |
| `JsText.SplitPlain` | Automation.ts:83 | a string without the separator splits into itself |
| `JsText.SplitPrefix` | Automation.ts:83 | a separator-free piece followed by the separator splits off as the first piece |
| `JsText.SplitJoin` | Automation.ts:83 | round trip: splitting the join of separator-free pieces returns the pieces |
| `JsText.TrimStart` | Automation.ts:8 | the result is no longer than the input |
| `JsText.TrimEnd` | Automation.ts:8 | the result is no longer than the input |
| `JsText.TrimStartFacts` | Automation.ts:8 | trimming the start removes an all-white-space prefix and leaves a result that is empty or starts with a non-space |
| `JsText.TrimEndFacts` | Automation.ts:8 | trimming the end removes an all-white-space suffix and leaves a result that is empty or ends with a non-space |
| `JsText.Trim` | Automation.ts:8 | `trim` never lengthens |
| `JsText.TrimBorder` | Automation.ts:8 | a trimmed string is empty or has no white space at either end |
| `JsText.TrimIsInfix` | Automation.ts:8 | the trimmed string is the input with only white space removed before and after it |
| `JsText.TrimKeeps` | Automation.ts:8 | a string without white space at its ends is its own trim |
| `JsText.Slice` | Automation.ts:109-120 | `slice` never lengthens; with non-negative indices in range it is the ordinary subsequence; a negative index counts from the end, for the start, the end or both; an index before the start of the string clamps to 0, so an end at or before it gives "" |
| `JsText.IsDigits` | Automation.ts:309 | `/^\d+$/` holds iff the string is non-empty and every position holds an ASCII digit |
| `JsText.IndexOf` | Automation.ts:316 | `indexOf` is -1 iff the character is absent, and otherwise is the position of its first occurrence |
| `JsText.RemoveFirst` | Automation.ts:9-10 | string-pattern `replace` with "" removes exactly one occurrence when there is one |
| `JsText.RemoveFirstAt` | Automation.ts:9-10 | the removed occurrence is the first one |
| `JsText.RemoveFirstAbsent` | Automation.ts:9-10 | without an occurrence the string is unchanged |
| `JsText.RemoveFirstKeepsOthers` | Automation.ts:9-10 | other characters keep their count |
| `JsText.Decimal` | Automation.ts:485 | a counter renders as digits without a leading zero |
| `JsText.DecimalRoundTrip` | Automation.ts:485 | round trip: reading the rendering back gives the counter |
| `Fields.SplitDate` | Automation.ts:82-89 | succeeds iff the date holds exactly two hyphens; the parts joined with hyphens give the date back and hold no hyphen; otherwise the date-format Error |
| `Fields.SplitDateOfJoin` | Automation.ts:82-89 | round trip: a date built from hyphen-free parts splits back into them |
| `Fields.SplitZipcode` | Automation.ts:122-130 | succeeds iff the postal code holds exactly one hyphen; the halves joined with a hyphen give it back; otherwise the postal-code-format Error |
| `Fields.SplitZipcodeOfJoin` | Automation.ts:122-130 | round trip for postal codes |
| `Fields.ParsePhoneNumber` | Automation.ts:109-115 | the three pieces concatenate to the number for every string; the last piece is the final min(4, n) characters, the middle one the min(8, n) − min(4, n) before them |
| `Fields.ParsePhoneFull` | Automation.ts:117-120 | the suffix of length min(11, n), the whole number when it has at most 11 characters |
| `Fields.SplitPeerName` | Automation.ts:411-413 | succeeds iff the name holds a space; otherwise trimming the missing second piece raises a TypeError |
| `Fields.SplitPeerNameTwo` | Automation.ts:411-413 | two space-free tokens give the two trimmed tokens |
| `Fields.SplitPeerNameDropsRest` | Automation.ts:411-413 | tokens after the second one are dropped |
| `Checkpoints.Normalise` | Automation.ts:6-12 | the normalised label is no longer than the raw text (what it removes is stated by the two lemmas below) |
| `Checkpoints.NormaliseDropsOneEach` | Automation.ts:8-10 | after trimming, exactly one line feed and one tab are removed when present |
| `Checkpoints.NormaliseKeepsLabel` | Automation.ts:6-12 | a label with no white space at its ends, no line feed and no tab normalises to itself, so each expected label can be reached |
| `Checkpoints.TwoLineFeedsKeepOne` | Automation.ts:9 | a text with two inner line feeds still has one after normalising |
| `Checkpoints.AssertCheckpoint` | Automation.ts:14-19 | true iff the normalised label equals the expected one; otherwise LotteryError("Failed to reach " + expected) |
| `Checkpoints.SingleReadIsAssert` | Automation.ts:33-38 | a one-read poll passes iff the assertion on that read passes |
| `Checkpoints.AwaitCheckpoint` | Automation.ts:459-469 | the credit-card poll stops at the first of at most 100 reads showing the heading, and fails with the given error iff no read shows it |
| `Checkpoints.SelectShow` | Automation.ts:92-100 | the option clicked is show number − 1 when it is below the option count; nothing is clicked past the last option; a number below one raises a TypeError |
| `Checkpoints.SelectSeat` | Automation.ts:102-107 | the option clicked is always index 0, and with no option the click raises a TypeError |
| `Retry.RunRetry` | Automation.ts:132-149 | the loop equals `RetrySpec` and calls `task` at most `attempts` times |
| `Retry.RetryFromFacts` | Automation.ts:135-148 | from any call on, the run stops at the first success and returns its value, and otherwise makes every allowed call and rethrows the last error |
| `Retry.ReturnsFirstSuccess` | Automation.ts:132-149 | at most `attempts` calls; a returned value is that of the last call, and every earlier call threw |
| `Retry.RethrowsLastError` | Automation.ts:147-148 | when every allowed call throws, the error of the last call is rethrown (`undefined` without calls) after exactly `attempts` calls |
| `Retry.FailThenSucceed` | Automation.ts:132-149 | a task that throws k times and then succeeds returns after exactly k + 1 calls when attempts ≥ k + 1, and otherwise rethrows the error of the last allowed call |
| `Summary.ChildrenTextAppend` | Automation.ts:191-199 | the text of a child list is the concatenation of the texts of its parts |
| `Summary.ChildrenTextSnoc` | Automation.ts:191-199 | each child appends its own text to the accumulator |
| `Summary.SpanAddsNothing` | Automation.ts:195 | a SPAN child contributes nothing, whatever it holds |
| `Summary.WithoutSpans` | Automation.ts:195-197 | the pruned tree holds no SPAN element at any depth |
| `Summary.WithoutSpansSameText` | Automation.ts:188-201 | pruning every SPAN subtree leaves the text unchanged |
| `Summary.TextContentIgnoringSpans` | Automation.ts:188-201 | the walk over the children computes `ChildrenText`: trimmed text nodes and non-SPAN elements, in order |
| `Summary.NonEmptyTexts` | Automation.ts:173-177 | no more contents than `dd` elements |
| `Summary.NonEmptyTextsFacts` | Automation.ts:173-177 | no kept text is empty, every non-empty `dd` text is kept, and nothing is kept iff all are empty |
| `Summary.Line` | Automation.ts:179-182 | a table yields a line iff its title and some `dd` text are non-empty, and the line ends with a line feed |
| `Summary.SummaryText` | Automation.ts:162-183 | the summary is empty or ends with a line feed, and it is empty when no table yields a line |
| `Summary.LineShape` | Automation.ts:179-182 | a table adds a line iff its title and some `dd` text are non-empty; the line is `title: c1, c2` ending with a line feed |
| `Summary.SummaryAppend` | Automation.ts:162-183 | each table appends its line; one with an empty title or only empty `dd` texts appends nothing |
| `Summary.CollectContent` | Automation.ts:173-177 | the pushed contents are the non-empty `dd` texts in order |
| `Summary.ExtractStep` | Automation.ts:162-183 | one pass of the table loop extends the summary by that table's line |
| `Summary.ExtractSummary` | Automation.ts:156-186 | the result is the summary of the bottom-ruled tables followed by the top-ruled ones |
| `Captcha.Answer` | Automation.ts:284-293 | a cache hit is the answer and the solver is not asked; on a miss the solver's answer or its error is the result |
| `Captcha.Acceptable` | Automation.ts:301-321 | an answer is submitted iff it has six characters, all digits, and it holds no '7' or the draw did not exceed 0.55 |
| `Captcha.SevenNeedsDraw` | Automation.ts:316-321 | "123457" is refetched when the draw exceeds 0.55 and submitted otherwise |
| `Captcha.CatchMessage` | Automation.ts:329-330 | the catch reads the message of the rethrown error, and a TypeError when `retry` rethrew `undefined` |
| `Captcha.IsCaptchaRejection` | Automation.ts:343 | the banner test holds for every banner text |
| `Captcha.Fill` | Automation.ts:327 | filling keeps the counters, passes the answer on, and throws exactly when the box rejects the fill |
| `Captcha.Round` | Automation.ts:279-325 | a round counts one fetch; it stops with a counted submission iff the fetch succeeded and the answer is acceptable (six digits, and no '7' unless the draw did not exceed 0.55); it refetches iff the answer is unacceptable and the refresh succeeds, carrying that answer as the candidate; a submitted answer carries the cache flag and URL of that fetch |
| `Captcha.Turn` | Automation.ts:272-357 | a turn goes on iff the retry returned and the banner shows text, carrying that page's summary; a passing turn met a clean page and reports that page's summary and the retry's counters; a failing turn comes from an exhausted retry, as LotteryError("Failed in captcha solving " + message) |
| `Captcha.WithCacheAlert` | Automation.ts:345-347 | a rejected turn adds one alert naming the captcha URL exactly when the last answer came from the cache |
| `Captcha.InnerCounters` | Automation.ts:278-326 | one call fetches between 1 and 10 times and submits at most once; a call that returns without a submission used all ten rounds |
| `Captcha.InnerLastFetch` | Automation.ts:280-325 | a counted submission was an acceptable answer of the last fetch; a call that returns without a submission filled the rejected answer of its last fetch; a returning call holds that fetch's cache flag and URL |
| `Captcha.AttemptFacts` | Automation.ts:276-328 | the counter facts of one call of the closure, and a call returning without a submission filled the last fetch's rejected answer |
| `Captcha.AttemptWellBehaved` | Automation.ts:276-328 | every call of the closure keeps the counter bounds `RetryFacts` relies on |
| `Captcha.RetryFacts` | Automation.ts:276-331 | five calls add at most 50 fetches; submissions never outnumber fetches; a returned retry holds the last fetch's provenance; an exhausted one always has an error |
| `Captcha.OuterCounters` | Automation.ts:272-363 | a returned report has `captcha_solve_tries` ≤ 2·5·10 and `captcha_submit_tries` ≤ `captcha_solve_tries` |
| `Captcha.OuterErrors` | Automation.ts:329-351 | the only error is the retry exhaustion wrapped as LotteryError("Failed in captcha solving …"); the fatal banner branch never runs |
| `Captcha.OuterContinues` | Automation.ts:341-349 | a non-empty banner after a returned retry starts the next turn with the new counters, the new summary and the cache alert |
| `Captcha.OuterRethrown` | Automation.ts:329-330 | a turn whose retry rethrew ends the run with LotteryError("Failed in captcha solving " + message), or the TypeError of reading the message of `undefined` |
| `Captcha.OuterClean` | Automation.ts:337-356 | a turn whose retry returned and whose banner is absent or empty ends the run as passed, with that page's summary and the retry's counters |
| `Captcha.OuterAlerts` | Automation.ts:345-347 | at most one alert per turn, all of them cache alerts |
| `Captcha.OuterPassed` | Automation.ts:272-357 | passed iff some turn met a page with no banner or an empty one |
| `Captcha.FirstClean` | Automation.ts:272-357 | the first turn from `i` on whose page is clean, or the turn limit when there is none |
| `Captcha.OuterSummary` | Automation.ts:272-363 | a returned report passed iff a clean page comes before the turn limit, and it carries the summary of the first clean page, or of the last page when none was clean |
| `Captcha.SolveFacts` | Automation.ts:262-364 | the whole engine: counter bounds, at most two cache alerts, the only error is the solving failure, and `captcha_passed` iff one of the two pages was clean; the summary is that of the first clean page, or of the second page when neither was clean |
| `Captcha.InnerFaultless` | Automation.ts:278-327 | without faults the closure always returns |
| `Captcha.RetryFaultless` | Automation.ts:138 | without faults `retry` returns after its first call |
| `Captcha.FirstAnswerPasses` | Automation.ts:262-364 | a good fresh answer on a clean page: passed, one fetch, one submission, no alert |
| `Captcha.CachedAnswerRejectedTwice` | Automation.ts:343-349 | a cached answer rejected on both turns: not passed, two fetches, two submissions, two cache alerts |
| `Captcha.NeverDigitsUsesAllRounds` | Automation.ts:309-327 | a solver that never answers in digits uses all ten rounds and still fills the last candidate "12a456", without an error |
| `Captcha.NeverDigitsStillPasses` | Automation.ts:327-356 | such a run reports passed with ten fetches and no submission |
| `Captcha.PlayRound` | Automation.ts:279-325 | one imperative round equals `Round` |
| `Captcha.SolveOnce` | Automation.ts:276-328 | the closure's loop equals `Attempt` |
| `Captcha.SolveCaptchaAndSubmit` | Automation.ts:262-364 | the imperative engine equals `SolveSpec`, so `SolveFacts` holds of it |
| `Address.PollResult` | Automation.ts:553-572 | the wait succeeds iff the address appeared; a rejected postal code is LotteryError("Failed to find address [1]"), running out of rounds the bare Error for the network |
| `Address.ReclicksUpTo` | Automation.ts:550-552 | every scheduled reclick is a round i ≠ 0 with i mod 25 = 0 |
| `Address.ReclicksComplete` | Automation.ts:550-552 | every such round is in the schedule, which is strictly increasing |
| `Address.ReclicksMultiples` | Automation.ts:550-552 | up to the end of the n-th block of 25 rounds, the reclicks are exactly the first n multiples of 25 |
| `Address.TimedOutReclicks` | Automation.ts:549-572 | a wait that runs out of rounds reclicked exactly nine times: at 25, 50, …, 225 |
| `Address.NoReclickBefore` | Automation.ts:550 | no reclick before round 25 |
| `Address.OffsetNotReclick` | Automation.ts:550 | a round strictly between two multiples of 25 is no reclick |
| `Address.ReclicksStep` | Automation.ts:550 | each block of 25 rounds adds exactly one reclick, at its first round |
| `Address.ReclickAt` | Automation.ts:550 | the search is clicked again at round i iff i is a positive multiple of 25 |
| `Address.PollFacts` | Automation.ts:549-567 | a found address is non-empty with no error text; a rejection met a non-empty error; every earlier round saw neither; at most 250 rounds |
| `Address.AwaitAddress` | Automation.ts:549-567 | the loop ends as `AwaitSpec` says, having reclicked exactly on the schedule up to its last round |
| `Address.FillGaps` | Automation.ts:574-585 | the first line is kept; a non-empty second or third line is left unchanged; an empty second line becomes the first line and an empty third line the placeholder |
| `Address.FillGapsComplete` | Automation.ts:574-585 | after a successful search no line is empty; filling is idempotent; the second line stays empty only when the first one is empty |
| `Flow.ProbeError` | Automation.ts:599-605 | a present, non-empty error element fails with the prefix followed by its text |
| `Flow.Accepted` | Automation.ts:485-486 | the summary starts with the procedure's "Accepted: " header and the acceptance number, and ends with the captcha summary |
| `Flow.AcceptedCounters` | Automation.ts:485-486 | the summary header holds both captcha counters in decimal, and they read back as the run's counters |
| `Flow.OverseaInputChecks` | Automation.ts:375-418 | the overseas input page's checks end with the first error, as `OverseaInputFailure` |
| `Flow.OverseaChecks` | Automation.ts:375-469 | the stages before the captcha end with the first error, as `OverseaFailure` |
| `Flow.CompleteOversea` | Automation.ts:365-492 | the imperative overseas procedure equals `OverseaSpec` |
| `Flow.InlandChecks` | Automation.ts:508-652 | the stages before the captcha end with the first error, as `InlandFailure` |
| `Flow.CompleteInland` | Automation.ts:494-673 | the imperative inland procedure equals `InlandSpec` |
| `Flow.FinishFacts` | Automation.ts:473-491 | after the pre-captcha stages a procedure succeeds iff the captcha passed and the final checkpoint holds; the errors are CaptchaError, the checkpoint's error or the solving failure; the alerts are the captcha's, at most two |
| `Flow.ChoicePasses` | Automation.ts:425-431 | the show and seat pages pass iff the heading matches, the show number is at least one and there is a seat option; their errors are the checkpoint error or the click TypeError |
| `Flow.OverseaInputPasses` | Automation.ts:375-413 | the overseas input page passes iff both labels match, the birth date has two hyphens and the peer name has a space |
| `Flow.OverseaPasses` | Automation.ts:375-469 | the overseas stages before the captcha pass iff the input page passes, "Priority 1" is reached, both clicks succeed and the card heading appears within 100 reads |
| `Flow.OverseaOutcome` | Automation.ts:365-492 | the overseas procedure succeeds iff every stage passes, the captcha passes and "Completion of Application" is reached; the summary is then the accepted header and the captcha summary; alerts only come after the earlier stages passed |
| `Flow.InlandInputPasses` | Automation.ts:508-605 | the inland input page passes iff both labels match, the date and postal code split, the address wait finds the address and the page-1 error is absent or empty |
| `Flow.InlandPaymentPasses` | Automation.ts:629-652 | payment, pick-up and confirmation pass iff both headings match, the account error is absent or empty and "内容確認" is reached |
| `Flow.InlandPasses` | Automation.ts:508-652 | the inland stages before the captcha pass iff each group passes |
| `Flow.InlandOutcome` | Automation.ts:494-673 | the inland procedure succeeds iff every stage passes, the captcha passes and "申込完了" is reached; the summary is then the accepted header and the captcha summary |
| `Flow.InlandAddressDecides` | Automation.ts:549-572 | when the earlier input checks pass but the address is not found, the procedure fails with exactly the wait's error |
| `Flow.AcceptedFirstAnswer` | Automation.ts:485-486 | the header for a one-fetch, one-submission run reads "CaptchaRun: 1,1" |
| `Flow.OverseaFirstAnswer` | Automation.ts:365-492 | an overseas run whose first captcha answer passes returns the acceptance number and the "Oversea Accepted" summary, with no alert |
| `Flow.InlandFirstAnswer` | Automation.ts:494-673 | the same for the inland run |

## Left out

- Timing is not modelled: `delay`, the fixed five-second cool-down in
  `throwLotteryError` / `throwCaptchaError`, and `delayWithNormalDistribution`
  with its floating-point sampler (`generateNormalRandom`, `randomInRange`)
  and `randomChoice`. Only the fact that the throw helpers raise the tagged
  error is kept.
- `Math.random() > 0.55` (`Automation.ts:316`) is a boolean oracle per round
  (`Shot.draw`); no distribution is stated.
- Playwright actions whose values are not traced: `goto`, `click`, `check`,
  `fill`, `selectOption`, the clicks outside the captcha closure, and the
  `page.evaluate` that reads the summary in each turn (`getLotterySummery`,
  `Automation.ts:155`, called at `Automation.ts:273` outside the retry). They
  are taken to succeed. The exceptions are two actions inside the captcha
  closure: the answer fill, whose fault is `Env.fillFault`, and the refresh
  click, whose fault is `Shot.refreshFault`.
- `checkElementExistence` and `innerText` reads are not modelled as calls: an
  element that may be absent is an `Option` in the site record. Reads of
  elements the code does not guard are taken to find their element:
  the navigation label and the heading (`Automation.ts:6`, `Automation.ts:25`),
  the card heading (`Automation.ts:461`), the acceptance number
  (`Automation.ts:484`, `Automation.ts:663`) and the address line
  (`Automation.ts:561`). The Playwright TimeoutError such a read would raise
  on a missing element is never produced.
- Address.FillGaps: stated on its own, not wired into `Flow.InlandSpec`,
  because the procedures do not trace the values typed into the form.
- `getCaptchaBase64` (canvas and JPEG encoding) and `getCaptchaURL` are reduced
  to what the engine sees of them: a URL, or a fault (`Shot.fetchFault`).
- `solveCaptchaFromCache` and `CaptchaRun.solveTextCaptcha` are oracles:
  `Shot.cached` (`None` for a miss) and `Shot.solved`. CaptchaRun.ts is not
  part of this model.
- The webhook senders are not modelled: a cache alert is appended to the
  run's `alerts` list. Webhook.ts is not part of this model. The cache-alert
  send (`Automation.ts:346`) is outside the retry and is taken to succeed;
  the claim of `Captcha.SolveFacts` that the only error is the solving
  failure rests on that and on the summary read above.
- Backend.ts (the record schema) is not part of this model. Only the record
  fields that decide the control flow are in `Flow.Applicant`. The string
  fields are taken to be defined strings. Four fields can make a procedure
  raise: the birth date and the postal code (format Errors, `Fields.SplitDate`
  and `Fields.SplitZipcode`), the peer name (a TypeError,
  `Fields.SplitPeerName`) and the show number (a TypeError below one,
  `Checkpoints.SelectShow`).
- Flow.InlandSpec: the postal code is the one optional field the engine
  reads: the schema declares it optional with default `null`
  (`Backend.ts:44`, `Backend.ts:95`). An inland record without one would
  raise a TypeError when `splitZipcode` calls `split` on it
  (`Automation.ts:123`, called at `Automation.ts:538`). The model takes the
  postal code to be present.
- Checkpoints.SelectShow: the show number is an `int`, standing for the
  JavaScript number `lottery.showNo`. A fractional number (the element at
  index 0.5 is `undefined`, so the click raises a TypeError) and NaN (no
  comparison holds, so nothing is clicked) are not modelled.
- Console logging has no model.
- Characters are Unicode scalar values, not UTF-16 code units. Lengths
  and slices differ from JavaScript only for text outside the Basic
  Multilingual Plane.
- Captcha.SolveCaptchaAndSubmit: the summary of a turn and the banner after
  its submission are read from one `Captcha.Page` record per turn. The
  summary's tables and the banner are independent fields of that record.
- Captcha.SolveCaptchaAndSubmit: the retry runs the closure as the function
  `Captcha.AttemptTask`. `Captcha.SolveOnce` is the closure's loop written
  imperatively and is proved equal to it. This is because a Dafny method
  cannot be passed to `Retry.RunRetry` as a task.

=== FILE: address.dfy ===
/** The postal-address step of the inland flow (Automation.ts
    completeInlandLottery): waiting for the address search to fill the
    first address line, re-clicking the search button now and then, and
    filling the second and third lines when the search left them empty. */
module Address {
  import opened Errors

  const PollRounds := 250
  const ReclickEvery := 25
  const Placeholder := "番地なし"

  const ZipFailure: Failure := LotteryError("Failed to find address [1]")
  const NetworkFailure: Failure := PlainError("Failed to find address [2] due to network issue")

  /** What one round of the wait rounds: the postal-code error element's text
      (`None` when there is no such element) and the first address line. */
  datatype PollRead = PollRead(zipError: Option<string>, line1: string)

  /** How the wait ends: the first address line appeared in round `at`, the
      postal code was rejected in round `at`, or every round passed. */
  datatype PollEnd = Found(at: nat) | ZipRejected(at: nat) | TimedOut

  /** The error element is there and says something. */
  predicate ZipFailed(read: PollRead)
  {
    read.zipError.Some? && read.zipError.value != ""
  }

  /** The search button is clicked again at the start of round `i`. */
  predicate ReclickAt(i: nat): (again: bool)
    ensures again <==> ReclickEvery <= i && i == ReclickEvery * (i / ReclickEvery)
  {
    i != 0 && i % ReclickEvery == 0
  }

  /** The wait from round `i` on. */
  function PollFrom(rounds: nat -> PollRead, i: nat): PollEnd
    decreases PollRounds - i
  {
    if i >= PollRounds then TimedOut
    else if ZipFailed(rounds(i)) then ZipRejected(i)
    else if rounds(i).line1 != "" then Found(i)
    else PollFrom(rounds, i + 1)
  }

  function AwaitSpec(rounds: nat -> PollRead): PollEnd
  {
    PollFrom(rounds, 0)
  }

  /** The flow's outcome for the wait: the round that found the address, or
      the error it throws. */
  function PollResult(e: PollEnd): (r: Result<nat>)
    ensures r.Ok? <==> e.Found?
    ensures r.Err? ==> r.error == (if e.ZipRejected? then ZipFailure else NetworkFailure)
  {
    match e
    case Found(at) => Ok(at)
    case ZipRejected(_) => Err(ZipFailure)
    case TimedOut => Err(NetworkFailure)
  }

  /** The last round the wait ran. */
  function LastRound(e: PollEnd): nat
  {
    match e
    case Found(at) => at
    case ZipRejected(at) => at
    case TimedOut => PollRounds - 1
  }

  /** The rounds up to `k` at which the search button is clicked again. */
  function ReclicksUpTo(k: nat): (r: seq<nat>)
    ensures forall j :: 0 <= j < |r| ==> ReclickAt(r[j]) && r[j] <= k
  {
    if k == 0 then []
    else if ReclickAt(k) then ReclicksUpTo(k - 1) + [k]
    else ReclicksUpTo(k - 1)
  }

  /** Every reclick round up to `k` is in the schedule, and the schedule is
      strictly increasing. */
  lemma {:induction false} ReclicksComplete(k: nat)
    ensures forall i :: 0 < i <= k && ReclickAt(i) ==> i in ReclicksUpTo(k)
    ensures forall a, b :: 0 <= a < b < |ReclicksUpTo(k)| ==> ReclicksUpTo(k)[a] < ReclicksUpTo(k)[b]
  {
    if k > 0 {
      ReclicksComplete(k - 1);
    }
  }

  /** Up to the last round of the `n`-th block of twenty-five rounds, the
      search button is clicked again exactly at the first `n` multiples
      of 25. */
  lemma {:induction false} ReclicksMultiples(n: nat)
    ensures ReclicksUpTo(ReclickEvery * n + ReclickEvery - 1) == seq(n, j => ReclickEvery * (j + 1))
  {
    if n == 0 {
      NoReclickBefore(ReclickEvery - 1);
    } else {
      ReclicksMultiples(n - 1);
      ReclicksStep(ReclickEvery * (n - 1) + ReclickEvery - 1);
      assert seq(n, j => ReclickEvery * (j + 1))
             == seq(n - 1, j => ReclickEvery * (j + 1)) + [ReclickEvery * n];
    }
  }

  /** A wait that runs out of rounds has clicked the search button again
      nine times: at rounds 25, 50, ..., 225. */
  lemma TimedOutReclicks(rounds: nat -> PollRead)
    requires AwaitSpec(rounds).TimedOut?
    ensures ReclicksUpTo(LastRound(AwaitSpec(rounds))) == [25, 50, 75, 100, 125, 150, 175, 200, 225]
  {
    var n := LastRound(AwaitSpec(rounds)) / ReclickEvery;
    ReclicksMultiples(n);
  }

  /** No reclick happens before round 25. */
  lemma {:induction false} NoReclickBefore(k: nat)
    requires k < ReclickEvery
    ensures ReclicksUpTo(k) == []
  {
    if k > 0 {
      NoReclickBefore(k - 1);
    }
  }

  /** A round strictly between two multiples of 25 is not a reclick. */
  lemma OffsetNotReclick(q: nat, d: nat)
    requires 0 < d < ReclickEvery
    ensures !ReclickAt(ReclickEvery * q + d)
  {
  }

  /** Over the twenty-five rounds after `from`, exactly one reclick is
      added: the first of them. */
  lemma ReclicksStep(from: nat)
    requires (from + 1) % ReclickEvery == 0
    ensures ReclicksUpTo(from + ReclickEvery) == ReclicksUpTo(from) + [from + 1]
  {
    var q := (from + 1) / ReclickEvery;
    assert from + 1 == ReclickEvery * q;
    var k := from + 1;
    while k < from + ReclickEvery
      invariant from + 1 <= k <= from + ReclickEvery
      invariant ReclicksUpTo(k) == ReclicksUpTo(from) + [from + 1]
    {
      OffsetNotReclick(q, k + 1 - ReclickEvery * q);
      k := k + 1;
    }
  }

  /** What the wait's outcome says about the rounds: a found address is
      non-empty and read without an error, a rejection met a non-empty
      error text, and every earlier round saw neither. */
  lemma {:induction false} PollFacts(rounds: nat -> PollRead, i: nat)
    requires i <= PollRounds
    ensures var e := PollFrom(rounds, i);
            && (e.Found? ==> i <= e.at < PollRounds && rounds(e.at).line1 != "" && !ZipFailed(rounds(e.at)))
            && (e.ZipRejected? ==> i <= e.at < PollRounds && ZipFailed(rounds(e.at)))
            && (forall j :: i <= j < (if e.TimedOut? then PollRounds else LastRound(e)) ==>
                  !ZipFailed(rounds(j)) && rounds(j).line1 == "")
    decreases PollRounds - i
  {
    if i < PollRounds && !ZipFailed(rounds(i)) && rounds(i).line1 == "" {
      PollFacts(rounds, i + 1);
    }
  }

  /** The wait for the first address line: up to 250 rounds, clicking the
      search button again every 25 rounds, failing as soon as the postal
      code is reported wrong and stopping as soon as the line is filled. */
  method AwaitAddress(rounds: nat -> PollRead) returns (e: PollEnd, reclicks: seq<nat>)
    ensures e == AwaitSpec(rounds)
    ensures reclicks == ReclicksUpTo(LastRound(e))
  {
    reclicks := [];
    var i := 0;
    while i < PollRounds
      invariant i <= PollRounds
      invariant PollFrom(rounds, i) == AwaitSpec(rounds)
      invariant reclicks == ReclicksUpTo(if i == 0 then 0 else i - 1)
    {
      if i != 0 && i % ReclickEvery == 0 {
        reclicks := reclicks + [i];
      }
      assert reclicks == ReclicksUpTo(i);
      var read := rounds(i);
      if read.zipError.Some? && read.zipError.value != "" {
        return ZipRejected(i), reclicks;
      }
      if read.line1 != "" {
        return Found(i), reclicks;
      }
      i := i + 1;
    }
    e := TimedOut;
  }

  /** The three address lines as the form holds them after the search. */
  datatype Lines = Lines(line1: string, line2: string, line3: string)

  /** An empty second line is filled with the first; an empty third line
      with the placeholder for "no street number". */
  function FillGaps(a: Lines): (r: Lines)
    ensures r.line1 == a.line1
    ensures a.line2 != "" ==> r.line2 == a.line2
    ensures a.line3 != "" ==> r.line3 == a.line3
    ensures a.line2 == "" ==> r.line2 == a.line1
    ensures a.line3 == "" ==> r.line3 == Placeholder
  {
    Lines(a.line1,
          if a.line2 == "" then a.line1 else a.line2,
          if a.line3 == "" then Placeholder else a.line3)
  }

  /** After the search found the first line no address line is empty, and
      filling the gaps a second time changes nothing. */
  lemma FillGapsComplete(a: Lines)
    ensures a.line1 != "" ==> FillGaps(a).line2 != "" && FillGaps(a).line3 != ""
    ensures FillGaps(a).line3 != ""
    ensures FillGaps(a).line2 == "" <==> a.line1 == "" && a.line2 == ""
    ensures a.line1 != "" ==> FillGaps(FillGaps(a)) == FillGaps(a)
  {
  }
}

=== FILE: captcha.dfy ===
/** The captcha solving and submission engine (Automation.ts
    solveCaptchaAndSubmit): up to two submissions of the confirmation page,
    each preceded by a retried closure that fetches, solves and validates a
    captcha up to ten times.

    Everything the engine learns from the outside world is an oracle in
    `Env`. The captcha shown on the n-th fetch (counting every fetch of the
    whole run, which is what `captcha_solve_tries` counts before its
    increment) is `shot(n)`; the outcome of filling the answer box is keyed
    by the same counter at fill time, and the page read in turn n of the
    outer loop (whether or not that turn submitted an answer) is `page(n)`. Delays, console output and the timing
    distribution are not modelled. */
module Captcha {
  import opened Errors
  import opened JsText
  import opened Retry
  import opened Summary

  /** One fetch of the captcha: whether fetching the image or its URL
      threw, the URL, the answer the local cache holds for it, what the
      remote solver would answer, the random draw used when the answer
      holds a 7 (`Math.random() > 0.55`), and whether clicking the refresh
      link threw. */
  datatype Shot = Shot(fetchFault: Option<Failure>, url: string, cached: Option<string>,
                       solved: Result<string>, draw: bool, refreshFault: Option<Failure>)

  /** The page read in a turn: the two lists of summary tables, read before
      the turn's submission, and the text of the error banner read after it,
      `None` when there is no banner. */
  datatype Page = Page(bottomRuled: seq<Table>, topRuled: seq<Table>, errorText: Option<string>)

  datatype Env = Env(shot: nat -> Shot, fillFault: nat -> Option<Failure>, page: nat -> Page)

  /** The variables the retried closure captures and updates. */
  datatype Tries = Tries(solve: nat, submit: nat, cache: bool, cacheUrl: string)

  /** What `solveCaptchaAndSubmit` returns. */
  datatype Report = Report(passed: bool, summary: string, solveTries: nat, submitTries: nat)

  /** The whole run: the report or the error it throws, and the alerts sent
      to the error webhook on the way. */
  datatype CaptchaRun = CaptchaRun(outcome: Result<Report>, alerts: seq<string>)

  const InitialTries := Tries(0, 0, true, "")
  const InnerLimit := 10
  const RetryAttempts := 5
  const OuterLimit := 2

  const RejectionJa := "画像認証を正しく入力してください。"
  const RejectionEn := "Please re-enter Authentication Characters correctry."
  const CacheAlertPrefix := "URGENT: Error in local captcha cache\nURL: "
  const SolvingPrefix := "Failed in captcha solving "
  const UndefinedMessage := "Cannot read properties of undefined (reading 'message')"

  /** An answer is submitted when it is six characters long, all ASCII
      digits, and it either holds no 7 or the random draw lets it pass. */
  predicate Acceptable(answer: string, draw: bool): (ok: bool)
    ensures ok <==> |answer| == 6 && IsDigits(answer) && ('7' !in answer || !draw)
  {
    |answer| == 6 && IsDigits(answer) && !(IndexOf(answer, '7') != -1 && draw)
  }

  /** What filling the answer box does when the counter reads `solve`. */
  function Fill(env: Env, st: Tries, answer: string): (step: Step<Tries, string>)
    ensures step.next == st
    ensures step.out.Ok? <==> env.fillFault(st.solve).None?
    ensures step.out.Ok? ==> step.out.value == answer
  {
    match env.fillFault(st.solve)
    case Some(f) => Step(Err(f), st)
    case None => Step(Ok(answer), st)
  }

  /** The answer a fetch yields: the cached one when the cache knows the
      URL, otherwise what the solver returns or throws. */
  function Answer(e: Shot): (r: Result<string>)
    ensures e.cached.Some? ==> r == Ok(e.cached.value)
    ensures e.cached.None? ==> r == e.solved
  {
    if e.cached.Some? then Ok(e.cached.value) else e.solved
  }

  /** How one round of the closure ends: the call is over with `step`, or
      the candidate was rejected and the next round starts from `st`. */
  datatype RoundEnd = Stop(step: Step<Tries, string>) | Again(st: Tries, candidate: string)

  /** One round of the closure's loop: fetch the captcha, take the cached
      answer or ask the solver, then fill an acceptable answer or refresh.
      Exactly one fetch is counted. A submission is counted exactly when
      the fetch and the answer succeed and the answer is acceptable; the
      round starts again exactly when the answer is not acceptable and the
      refresh works. An answer that reaches the box carries the cache flag
      and URL of that fetch. */
  function Round(env: Env, st: Tries): (r: RoundEnd)
    ensures var e := env.shot(st.solve);
            (r.Stop? && r.step.next.submit == st.submit + 1)
            <==> e.fetchFault.None? && Answer(e).Ok? && Acceptable(Answer(e).value, e.draw)
    ensures var e := env.shot(st.solve);
            r.Again? <==> e.fetchFault.None? && Answer(e).Ok? && !Acceptable(Answer(e).value, e.draw)
                          && e.refreshFault.None?
    ensures r.Again? ==> && r.st.solve == st.solve + 1 && r.st.submit == st.submit
                         && CacheOf(r.st, env.shot(st.solve))
                         && r.candidate == Answer(env.shot(st.solve)).value
    ensures r.Stop? ==> && r.step.next.solve == st.solve + 1
                        && st.submit <= r.step.next.submit <= st.submit + 1
                        && (r.step.out.Ok? ==> r.step.next.submit == st.submit + 1)
                        && (r.step.next.submit == st.submit + 1 ==>
                              Submitted(env.shot(st.solve), r.step.out))
                        && (r.step.out.Ok? ==> CacheOf(r.step.next, env.shot(st.solve)))
  {
    var e := env.shot(st.solve);
    var counted := st.(solve := st.solve + 1);
    if e.fetchFault.Some? then Stop(Step(Err(e.fetchFault.value), counted))
    else
      var marked := counted.(cache := true, cacheUrl := e.url);
      match Answer(e)
      case Err(f) => Stop(Step(Err(f), marked))
      case Ok(candidate) =>
        var after := marked.(cache := e.cached.Some?);
        if Acceptable(candidate, e.draw) then
          Stop(Fill(env, after.(submit := after.submit + 1), candidate))
        else if e.refreshFault.Some? then Stop(Step(Err(e.refreshFault.value), after))
        else Again(after, candidate)
  }

  /** The closure's loop from iteration `n` on, `answer` holding the
      candidate of the previous iteration. */
  function InnerFrom(env: Env, st: Tries, n: nat, answer: string): Step<Tries, string>
    decreases InnerLimit - n
  {
    if n >= InnerLimit then Fill(env, st, answer)
    else
      match Round(env, st)
      case Stop(step) => step
      case Again(st', candidate) => InnerFrom(env, st', n + 1, candidate)
  }

  /** One call of the retried closure. */
  function Attempt(env: Env, st: Tries): Step<Tries, string>
  {
    InnerFrom(env, st, 0, "")
  }

  /** The closure as the retry controller sees it. */
  function AttemptTask(env: Env): Tries -> Step<Tries, string>
  {
    st => Attempt(env, st)
  }

  /** The message read from what `retry` threw; reading it from
      `undefined` throws a TypeError instead. */
  function CatchMessage(last: Option<Failure>): (r: Result<string>)
    ensures r.Ok? <==> last.Some?
    ensures r.Ok? ==> r.value == last.value.message
    ensures r.Err? ==> r.error == TypeError(UndefinedMessage)
  {
    match last
    case Some(f) => Ok(f.message)
    case None => Err(TypeError(UndefinedMessage))
  }

  /** The banner test. Its second operand is a bare non-empty string, so the
      test holds whatever the banner says. */
  predicate IsCaptchaRejection(text: string): (rejected: bool)
    ensures rejected
  {
    text == RejectionJa || RejectionEn != ""
  }

  /** How one turn of the outer loop ends: the run is over with `run`, or
      the page rejected the submission and the next turn starts with these
      counters, summary and alerts. */
  datatype TurnEnd = Done(run: CaptchaRun) | Next(st: Tries, summary: string, alerts: seq<string>)

  /** One turn of the outer loop, `task` being the retried closure and
      `summarise` what reads the summary of a page: read the summary, retry
      the closure, submit and read the banner. Because the
      banner test always holds, a turn goes on exactly when the retry
      returned and the banner shows text; a turn that ends in success has
      met a clean page, and the only errors are those of the retry. */
  function Turn(env: Env, task: Tries -> Step<Tries, string>,
                summarise: Page -> string, i: nat, st: Tries,
                alerts: seq<string>): (t: TurnEnd)
    ensures t.Next? <==> RetrySpec(task, st, RetryAttempts).verdict.Returned? && !Clean(env.page(i))
    ensures t.Next? ==> t.st == RetrySpec(task, st, RetryAttempts).state
                        && t.summary == summarise(env.page(i))
                        && t.alerts == WithCacheAlert(alerts, t.st)
    ensures t.Done? ==> t.run.alerts == alerts
    ensures t.Done? && t.run.outcome.Ok? ==>
              && t.run.outcome.value.passed && Clean(env.page(i))
              && t.run.outcome.value.summary == summarise(env.page(i))
              && t.run.outcome.value.solveTries == RetrySpec(task, st, RetryAttempts).state.solve
              && t.run.outcome.value.submitTries == RetrySpec(task, st, RetryAttempts).state.submit
    ensures t.Done? && t.run.outcome.Err? ==>
              && RetrySpec(task, st, RetryAttempts).verdict.Rethrown?
              && (RetrySpec(task, st, RetryAttempts).verdict.last.Some? ==>
                    t.run.outcome.error
                    == LotteryError(SolvingPrefix + RetrySpec(task, st, RetryAttempts).verdict.last.value.message))
  {
    var pg := env.page(i);
    var summary' := summarise(pg);
    var run := RetrySpec(task, st, RetryAttempts);
    match run.verdict
    case Rethrown(last) =>
      (match CatchMessage(last)
       case Ok(m) => Done(CaptchaRun(Err(LotteryError(SolvingPrefix + m)), alerts))
       case Err(f) => Done(CaptchaRun(Err(f), alerts)))
    case Returned(_) =>
      var st' := run.state;
      if pg.errorText.Some? && pg.errorText.value != "" then
        var text := Trim(pg.errorText.value);
        if IsCaptchaRejection(text) then Next(st', summary', WithCacheAlert(alerts, st'))
        else Done(CaptchaRun(Err(LotteryError("Failed to submit lottery" + text)), alerts))
      else Done(CaptchaRun(Ok(Report(true, summary', st'.solve, st'.submit)), alerts))
  }

  /** The outer loop from iteration `i` on, `summary` holding the summary
      read in the previous iteration. */
  function OuterFrom(env: Env, task: Tries -> Step<Tries, string>,
                     summarise: Page -> string, i: nat, st: Tries,
                     summary: string, alerts: seq<string>): CaptchaRun
    decreases OuterLimit - i
  {
    if i >= OuterLimit then CaptchaRun(Ok(Report(false, summary, st.solve, st.submit)), alerts)
    else
      match Turn(env, task, summarise, i, st, alerts)
      case Done(run) => run
      case Next(st', summary', alerts') => OuterFrom(env, task, summarise, i + 1, st', summary', alerts')
  }

  /** The alerts after a rejected submission: a cache alert naming the
      URL of the last captcha is added when its answer came from the cache. */
  function WithCacheAlert(alerts: seq<string>, st: Tries): (r: seq<string>)
    ensures alerts <= r && |r| <= |alerts| + 1
    ensures |r| == |alerts| + 1 <==> st.cache
    ensures st.cache ==> r[|alerts|] == CacheAlertPrefix + st.cacheUrl
    ensures AllCacheAlerts(alerts) ==> AllCacheAlerts(r)
  {
    assert CacheAlertPrefix <= CacheAlertPrefix + st.cacheUrl;
    if st.cache then alerts + [CacheAlertPrefix + st.cacheUrl] else alerts
  }

  /** What getLotterySummery reads from a page. */
  function PageSummary(pg: Page): string
  {
    SummaryText(pg.bottomRuled + pg.topRuled)
  }

  /** `solveCaptchaAndSubmit` against the environment `env`. */
  function SolveSpec(env: Env): CaptchaRun
  {
    OuterFrom(env, AttemptTask(env), PageSummary, 0, InitialTries, "", [])
  }

  // ------------------------------------------------------------ the closure

  /** One call of the closure from iteration `n` on, counted: it fetches
      at least once and at most ten times, submits at most once, and a
      successful call without a submission has used all ten rounds. */
  lemma {:induction false} InnerCounters(env: Env, st: Tries, n: nat, answer: string)
    requires n <= InnerLimit
    ensures var step := InnerFrom(env, st, n, answer);
            && (n < InnerLimit ==> st.solve + 1 <= step.next.solve <= st.solve + (InnerLimit - n))
            && (n == InnerLimit ==> step.next == st)
            && st.submit <= step.next.submit <= st.submit + 1
            && (step.out.Ok? && step.next.submit == st.submit ==>
                  step.next.solve == st.solve + (InnerLimit - n))
    decreases InnerLimit - n
  {
    if n < InnerLimit {
      var r := Round(env, st);
      if r.Again? {
        InnerCounters(env, r.st, n + 1, r.candidate);
      }
    }
  }

  /** The answer of fetch `e` was the one submitted: the fetch and the
      answer succeeded, the answer passed the acceptance rule, and a
      successful call filled it in. */
  predicate Submitted(e: Shot, out: Result<string>)
  {
    && e.fetchFault.None? && Answer(e).Ok? && Acceptable(Answer(e).value, e.draw)
    && (out.Ok? ==> out.value == Answer(e).value)
  }

  /** A call that returned without counting a submission filled the answer
      of its last fetch, which the acceptance rule had rejected. */
  predicate FilledRejected(e: Shot, out: Result<string>)
  {
    && e.fetchFault.None? && Answer(e).Ok? && !Acceptable(Answer(e).value, e.draw)
    && (out.Ok? ==> out.value == Answer(e).value)
  }

  /** The cache flag and URL are those of fetch `e`. */
  predicate CacheOf(st: Tries, e: Shot)
  {
    st.cacheUrl == e.url && st.cache == e.cached.Some?
  }

  /** One call of the closure from iteration `n` on: a submission is
      counted only for the answer of the last fetch, which then passed the
      acceptance rule and is what gets filled; a successful call from a
      round before the tenth leaves the cache flag and URL of its last
      fetch; and one that counted no submission filled the rejected answer
      of its last fetch. */
  lemma {:induction false} InnerLastFetch(env: Env, st: Tries, n: nat, answer: string)
    requires n <= InnerLimit
    ensures var step := InnerFrom(env, st, n, answer);
            && (step.next.submit == st.submit + 1 ==>
                  step.next.solve > st.solve && Submitted(env.shot(step.next.solve - 1), step.out))
            && (n < InnerLimit && step.out.Ok? ==>
                  step.next.solve > st.solve && CacheOf(step.next, env.shot(step.next.solve - 1)))
            && (n < InnerLimit && step.out.Ok? && step.next.submit == st.submit ==>
                  step.next.solve > st.solve && FilledRejected(env.shot(step.next.solve - 1), step.out))
    decreases InnerLimit - n
  {
    if n < InnerLimit {
      var r := Round(env, st);
      if r.Again? {
        InnerCounters(env, r.st, n + 1, r.candidate);
        if n + 1 < InnerLimit {
          InnerLastFetch(env, r.st, n + 1, r.candidate);
        }
      }
    }
  }

  /** The closure on one call: between one and ten fetches, at most one
      submission, and a successful call with no submission means all ten
      candidates were rejected. */
  lemma AttemptFacts(env: Env, st: Tries)
    ensures var step := Attempt(env, st);
            && st.solve + 1 <= step.next.solve <= st.solve + InnerLimit
            && st.submit <= step.next.submit <= st.submit + 1
            && (step.out.Ok? && step.next.submit == st.submit ==> step.next.solve == st.solve + InnerLimit)
            && (step.next.submit == st.submit + 1 ==> Submitted(env.shot(step.next.solve - 1), step.out))
            && (step.out.Ok? ==> CacheOf(step.next, env.shot(step.next.solve - 1)))
            && (step.out.Ok? && step.next.submit == st.submit ==>
                  FilledRejected(env.shot(step.next.solve - 1), step.out))
  {
    InnerCounters(env, st, 0, "");
    InnerLastFetch(env, st, 0, "");
  }

  // ------------------------------------------------------ the retried closure

  /** What one call of the closure guarantees the retry loop and the outer
      loop: one to ten fetches, at most one submission, and on success the
      cache flag and URL of its last fetch. */
  predicate Bounded(env: Env, s: Tries, step: Step<Tries, string>)
  {
    && s.solve + 1 <= step.next.solve <= s.solve + InnerLimit
    && s.submit <= step.next.submit <= s.submit + 1
    && (step.out.Ok? ==> CacheOf(step.next, env.shot(step.next.solve - 1)))
  }

  ghost predicate WellBehaved(env: Env, task: Tries -> Step<Tries, string>)
  {
    forall t :: Bounded(env, t, task(t))
  }

  /** The closure keeps those guarantees on every call. */
  lemma AttemptWellBehaved(env: Env)
    ensures WellBehaved(env, AttemptTask(env))
  {
    forall t ensures Bounded(env, t, AttemptTask(env)(t)) {
      AttemptFacts(env, t);
    }
  }

  /** Up to five calls of the closure from call `i` on: every call fetches
      at most ten times and submits at most once and only after a fetch, a
      returned call leaves the cache flag and URL of its last fetch, and
      with at least one call made the rethrown error is never `undefined`. */
  lemma {:induction false} RetryFacts(env: Env, task: Tries -> Step<Tries, string>, s: Tries,
                                      i: nat, last: Option<Failure>)
    requires WellBehaved(env, task)
    requires i <= RetryAttempts
    requires i < RetryAttempts || last.Some?
    ensures var run := RetryFrom(task, s, i, RetryAttempts, last);
            && s.solve <= run.state.solve <= s.solve + 10 * (RetryAttempts - i)
            && s.submit <= run.state.submit
            && run.state.submit - s.submit <= run.state.solve - s.solve
            && (run.verdict.Returned? ==>
                  && run.state.solve > s.solve
                  && run.state.cacheUrl == env.shot(run.state.solve - 1).url
                  && run.state.cache == env.shot(run.state.solve - 1).cached.Some?)
            && (run.verdict.Rethrown? ==> run.verdict.last.Some?)
    decreases RetryAttempts - i
  {
    if i < RetryAttempts {
      var step := task(s);
      assert Bounded(env, s, step);
      if step.out.Err? {
        RetryFacts(env, task, step.next, i + 1, Some(step.out.error));
      }
    }
  }

  // --------------------------------------------------------- the outer loop

  /** The banner after a submission shows no rejection: there is none, or
      it is empty. */
  predicate Clean(pg: Page)
  {
    pg.errorText.None? || pg.errorText.value == ""
  }

  predicate IsCacheAlert(alert: string)
  {
    CacheAlertPrefix <= alert
  }

  /** Every alert in `alerts` is a cache alert. */
  predicate AllCacheAlerts(alerts: seq<string>)
  {
    forall k :: 0 <= k < |alerts| ==> IsCacheAlert(alerts[k])
  }

  /** The outer loop from iteration `i` on keeps the counters within the
      budget of ten fetches per call and five calls per turn, with
      submissions never outnumbering fetches. */
  lemma {:induction false} OuterCounters(env: Env, task: Tries -> Step<Tries, string>,
                                         summarise: Page -> string, i: nat,
                                         st: Tries, summary: string, alerts: seq<string>)
    requires WellBehaved(env, task)
    requires i <= OuterLimit
    requires st.solve <= 50 * i && st.submit <= st.solve
    ensures var r := OuterFrom(env, task, summarise, i, st, summary, alerts);
            r.outcome.Ok? ==>
              && r.outcome.value.solveTries <= 100
              && r.outcome.value.submitTries <= r.outcome.value.solveTries
    decreases OuterLimit - i
  {
    var r := OuterFrom(env, task, summarise, i, st, summary, alerts);
    if i < OuterLimit {
      RetryFacts(env, task, st, 0, None);
      var t := Turn(env, task, summarise, i, st, alerts);
      if t.Next? {
        assert r == OuterFrom(env, task, summarise, i + 1, t.st, t.summary, t.alerts);
        OuterCounters(env, task, summarise, i + 1, t.st, t.summary, t.alerts);
      } else {
        assert r == t.run;
      }
    }
  }

  /** The only error the outer loop throws is the captcha-solving failure,
      carrying the message of the last error the closure threw. */
  lemma {:induction false} OuterErrors(env: Env, task: Tries -> Step<Tries, string>,
                                       summarise: Page -> string, i: nat,
                                       st: Tries, summary: string, alerts: seq<string>)
    requires WellBehaved(env, task)
    requires i <= OuterLimit
    ensures var r := OuterFrom(env, task, summarise, i, st, summary, alerts);
            r.outcome.Err? ==> r.outcome.error.LotteryError? && SolvingPrefix <= r.outcome.error.message
    decreases OuterLimit - i
  {
    var r := OuterFrom(env, task, summarise, i, st, summary, alerts);
    if i < OuterLimit {
      var t := Turn(env, task, summarise, i, st, alerts);
      if t.Next? {
        assert r == OuterFrom(env, task, summarise, i + 1, t.st, t.summary, t.alerts);
        OuterErrors(env, task, summarise, i + 1, t.st, t.summary, t.alerts);
      } else if t.run.outcome.Err? {
        assert r == t.run;
        RetryFacts(env, task, st, 0, None);
        var m := RetrySpec(task, st, RetryAttempts).verdict.last.value.message;
        assert SolvingPrefix <= SolvingPrefix + m;
      }
    }
  }

  /** A turn of the outer loop whose retry returned and whose banner
      shows text goes on to the next turn. */
  lemma OuterContinues(env: Env, task: Tries -> Step<Tries, string>,
                       summarise: Page -> string, i: nat,
                       st: Tries, summary: string, alerts: seq<string>)
    requires i < OuterLimit
    requires RetrySpec(task, st, RetryAttempts).verdict.Returned?
    requires env.page(i).errorText.Some? && env.page(i).errorText.value != ""
    ensures var pg := env.page(i);
            var st' := RetrySpec(task, st, RetryAttempts).state;
            OuterFrom(env, task, summarise, i, st, summary, alerts)
              == OuterFrom(env, task, summarise, i + 1, st', summarise(pg),
                           WithCacheAlert(alerts, st'))
  {
    assert IsCaptchaRejection(Trim(env.page(i).errorText.value));
  }

  /** A turn of the outer loop whose retry rethrew ends the run with the
      message caught from the retry. */
  lemma OuterRethrown(env: Env, task: Tries -> Step<Tries, string>,
                      summarise: Page -> string, i: nat,
                      st: Tries, summary: string, alerts: seq<string>)
    requires i < OuterLimit
    requires RetrySpec(task, st, RetryAttempts).verdict.Rethrown?
    ensures var caught := CatchMessage(RetrySpec(task, st, RetryAttempts).verdict.last);
            OuterFrom(env, task, summarise, i, st, summary, alerts)
              == CaptchaRun(if caught.Ok? then Err(LotteryError(SolvingPrefix + caught.value))
                            else Err(caught.error), alerts)
  {
  }

  /** A turn of the outer loop whose retry returned and whose banner is
      absent or empty ends the run as passed, with that page's summary. */
  lemma OuterClean(env: Env, task: Tries -> Step<Tries, string>,
                   summarise: Page -> string, i: nat,
                   st: Tries, summary: string, alerts: seq<string>)
    requires i < OuterLimit
    requires RetrySpec(task, st, RetryAttempts).verdict.Returned?
    requires !(env.page(i).errorText.Some? && env.page(i).errorText.value != "")
    ensures var st' := RetrySpec(task, st, RetryAttempts).state;
            OuterFrom(env, task, summarise, i, st, summary, alerts)
              == CaptchaRun(Ok(Report(true, summarise(env.page(i)), st'.solve, st'.submit)), alerts)
  {
  }

  /** The outer loop from iteration `i` on only adds alerts, at most one
      per rejected submission, and every one is a cache alert. */
  lemma {:induction false} OuterAlerts(env: Env, task: Tries -> Step<Tries, string>,
                                       summarise: Page -> string, i: nat,
                                       st: Tries, summary: string, alerts: seq<string>)
    requires i <= OuterLimit
    requires |alerts| <= i && AllCacheAlerts(alerts)
    ensures var r := OuterFrom(env, task, summarise, i, st, summary, alerts);
            && |alerts| <= |r.alerts| <= OuterLimit
            && alerts <= r.alerts
            && AllCacheAlerts(r.alerts)
    decreases OuterLimit - i
  {
    var r := OuterFrom(env, task, summarise, i, st, summary, alerts);
    if i < OuterLimit {
      var t := Turn(env, task, summarise, i, st, alerts);
      if t.Next? {
        assert r == OuterFrom(env, task, summarise, i + 1, t.st, t.summary, t.alerts);
        OuterAlerts(env, task, summarise, i + 1, t.st, t.summary, t.alerts);
      } else {
        assert r == t.run;
      }
    }
  }

  /** The outer loop from iteration `i` on passes only after a submission
      from `i` on met a clean page, and gives up only when every one met a
      rejection. */
  lemma {:induction false} OuterPassed(env: Env, task: Tries -> Step<Tries, string>,
                                       summarise: Page -> string, i: nat,
                                       st: Tries, summary: string, alerts: seq<string>)
    requires i <= OuterLimit
    ensures var r := OuterFrom(env, task, summarise, i, st, summary, alerts);
            && (r.outcome.Ok? && r.outcome.value.passed ==>
                  exists j :: i <= j < OuterLimit && Clean(env.page(j)))
            && (r.outcome.Ok? && !r.outcome.value.passed ==>
                  forall j :: i <= j < OuterLimit ==> !Clean(env.page(j)))
    decreases OuterLimit - i
  {
    var r := OuterFrom(env, task, summarise, i, st, summary, alerts);
    if i < OuterLimit {
      var t := Turn(env, task, summarise, i, st, alerts);
      if t.Next? {
        assert r == OuterFrom(env, task, summarise, i + 1, t.st, t.summary, t.alerts);
        OuterPassed(env, task, summarise, i + 1, t.st, t.summary, t.alerts);
        if r.outcome.Ok? && r.outcome.value.passed {
          var j :| i + 1 <= j < OuterLimit && Clean(env.page(j));
          assert i <= j < OuterLimit && Clean(env.page(j));
        }
      } else {
        assert r == t.run;
      }
    }
  }

  /** The first turn from `i` on whose page is clean, or `OuterLimit` when
      there is none. */
  function FirstClean(env: Env, i: nat): (j: nat)
    ensures i <= j || j == OuterLimit
    ensures j <= OuterLimit || j == i
    ensures j < OuterLimit ==> Clean(env.page(j))
    ensures forall k :: i <= k < j && k < OuterLimit ==> !Clean(env.page(k))
    decreases OuterLimit - i
  {
    if i >= OuterLimit then OuterLimit
    else if Clean(env.page(i)) then i
    else FirstClean(env, i + 1)
  }

  /** The summary a report carries is the one read in its last turn: the
      turn of the first clean page when the captcha passed, and otherwise
      the last of the two turns. */
  lemma {:induction false} OuterSummary(env: Env, task: Tries -> Step<Tries, string>,
                                        summarise: Page -> string, i: nat,
                                        st: Tries, summary: string, alerts: seq<string>)
    requires i < OuterLimit
    ensures var r := OuterFrom(env, task, summarise, i, st, summary, alerts);
            var j := FirstClean(env, i);
            r.outcome.Ok? ==>
              && (r.outcome.value.passed <==> j < OuterLimit)
              && r.outcome.value.summary == summarise(env.page(if j < OuterLimit then j else OuterLimit - 1))
    decreases OuterLimit - i
  {
    var t := Turn(env, task, summarise, i, st, alerts);
    if t.Next? && i + 1 < OuterLimit {
      OuterSummary(env, task, summarise, i + 1, t.st, t.summary, t.alerts);
    }
  }

  /** solveCaptchaAndSubmit as a whole: at most one hundred fetches, never
      more submissions than fetches, at most two alerts and all of them
      cache alerts, the captcha-solving failure as the only error, and
      `captcha_passed` set exactly when a submission met a clean page. */
  lemma SolveFacts(env: Env)
    ensures var r := SolveSpec(env);
            && (r.outcome.Ok? ==>
                  && r.outcome.value.solveTries <= 100
                  && r.outcome.value.submitTries <= r.outcome.value.solveTries)
            && |r.alerts| <= 2
            && (forall k :: 0 <= k < |r.alerts| ==> IsCacheAlert(r.alerts[k]))
            && (r.outcome.Err? ==>
                  r.outcome.error.LotteryError?
                  && SolvingPrefix <= r.outcome.error.message)
            && (r.outcome.Ok? && r.outcome.value.passed ==>
                  if Clean(env.page(0)) then r.outcome.value.summary == PageSummary(env.page(0))
                  else Clean(env.page(1)) && r.outcome.value.summary == PageSummary(env.page(1)))
            && (r.outcome.Ok? && !r.outcome.value.passed ==>
                  && !Clean(env.page(0)) && !Clean(env.page(1))
                  && r.outcome.value.summary == PageSummary(env.page(1)))
  {
    AttemptWellBehaved(env);
    OuterCounters(env, AttemptTask(env), PageSummary, 0, InitialTries, "", []);
    OuterErrors(env, AttemptTask(env), PageSummary, 0, InitialTries, "", []);
    OuterAlerts(env, AttemptTask(env), PageSummary, 0, InitialTries, "", []);
    OuterPassed(env, AttemptTask(env), PageSummary, 0, InitialTries, "", []);
    OuterSummary(env, AttemptTask(env), PageSummary, 0, InitialTries, "", []);
    var r := SolveSpec(env);
    if r.outcome.Ok? && r.outcome.value.passed {
      var j :| 0 <= j < OuterLimit && Clean(env.page(j));
      assert j == 0 || j == 1;
    }
  }

  // ------------------------------------------------------------- scenarios

  /** No fetch, solver, refresh or fill ever throws. */
  ghost predicate Faultless(env: Env)
  {
    forall n :: && env.shot(n).fetchFault.None? && env.shot(n).solved.Ok?
                && env.shot(n).refreshFault.None? && env.fillFault(n).None?
  }

  /** Without faults the closure always returns, so `retry` returns after
      its first call. */
  lemma {:induction false} InnerFaultless(env: Env, st: Tries, n: nat, answer: string)
    requires Faultless(env)
    requires n <= InnerLimit
    ensures InnerFrom(env, st, n, answer).out.Ok?
    decreases InnerLimit - n
  {
    if n < InnerLimit {
      var e := env.shot(st.solve);
      assert e.fetchFault.None? && e.solved.Ok? && e.refreshFault.None?;
      var candidate := Answer(e).value;
      var after := st.(solve := st.solve + 1, cache := e.cached.Some?, cacheUrl := e.url);
      if Acceptable(candidate, e.draw) {
        assert env.fillFault(after.solve).None?;
      } else {
        assert InnerFrom(env, st, n, answer) == InnerFrom(env, after, n + 1, candidate);
        InnerFaultless(env, after, n + 1, candidate);
      }
    } else {
      assert env.fillFault(st.solve).None?;
    }
  }

  /** Without faults `retry` makes exactly one call. */
  lemma RetryFaultless(env: Env, st: Tries)
    requires Faultless(env)
    ensures Attempt(env, st).out.Ok?
    ensures RetrySpec(AttemptTask(env), st, RetryAttempts)
            == Run(Returned(Attempt(env, st).out.value), Attempt(env, st).next, 1)
  {
    InnerFaultless(env, st, 0, "");
    assert AttemptTask(env)(st) == Attempt(env, st);
  }

  /** Every fetch shows the same captcha, which the solver reads as
      `answer`; the page shows no summary table and the banner `banner`. */
  function Steady(cached: Option<string>, answer: string, banner: Option<string>): (env: Env)
    ensures Faultless(env)
  {
    Env(n => Shot(None, "u", cached, Ok(answer), false, None), n => None, n => Page([], [], banner))
  }

  /** A good first answer on a page without a banner: one fetch, one
      submission, captcha passed, no alert. */
  lemma FirstAnswerPasses()
    ensures SolveSpec(Steady(None, "123456", None)) == CaptchaRun(Ok(Report(true, "", 1, 1)), [])
  {
    var env := Steady(None, "123456", None);
    var st1 := Tries(1, 1, false, "u");
    assert Acceptable("123456", false);
    assert Attempt(env, InitialTries) == Step(Ok("123456"), st1);
    RetryFaultless(env, InitialTries);
    assert SummaryText([]) == "";
  }

  /** A cached answer that the page rejects twice: the captcha is not
      passed and a cache alert goes out after EACH rejected submission, so
      two alerts in all. */
  lemma CachedAnswerRejectedTwice()
    ensures SolveSpec(Steady(Some("123456"), "123456", Some(RejectionJa)))
            == CaptchaRun(Ok(Report(false, "", 2, 2)), [CacheAlertPrefix + "u", CacheAlertPrefix + "u"])
  {
    var env := Steady(Some("123456"), "123456", Some(RejectionJa));
    var st1 := Tries(1, 1, true, "u");
    var st2 := Tries(2, 2, true, "u");
    assert Acceptable("123456", false);
    assert Attempt(env, InitialTries) == Step(Ok("123456"), st1);
    assert Attempt(env, st1) == Step(Ok("123456"), st2);
    RetryFaultless(env, InitialTries);
    RetryFaultless(env, st1);
    assert SummaryText([]) == "";
    var alerts1 := WithCacheAlert([], st1);
    OuterContinues(env, AttemptTask(env), PageSummary, 0, InitialTries, "", []);
    OuterContinues(env, AttemptTask(env), PageSummary, 1, st1, "", alerts1);
  }

  /** A six-digit answer holding a 7 is refreshed when the random draw
      says so, and is submitted otherwise. */
  lemma SevenNeedsDraw(env: Env, draw: bool, st: Tries)
    requires env.shot(st.solve) == Shot(None, "u", None, Ok("123457"), draw, None)
    requires env.fillFault(st.solve + 1).None?
    ensures var fetched := st.(solve := st.solve + 1, cache := false, cacheUrl := "u");
            && (draw ==> Round(env, st) == Again(fetched, "123457"))
            && (!draw ==> Round(env, st) == Stop(Step(Ok("123457"), fetched.(submit := st.submit + 1))))
  {
    assert IsDigits("123457");
    assert "123457"[5] == '7';
  }

  /** An answer that is never all digits: all ten rounds of the closure are
      used and nothing is counted as submitted, yet the call returns. */
  lemma NeverDigitsUsesAllRounds()
    ensures var step := Attempt(Steady(None, "12a456", None), InitialTries);
            step.out == Ok("12a456") && step.next == Tries(10, 0, false, "u")
  {
    var env := Steady(None, "12a456", None);
    assert !IsDigits("12a456") by {
      assert "12a456"[2] == 'a';
    }
    InnerFaultless(env, InitialTries, 0, "");
    InnerCounters(env, InitialTries, 0, "");
    InnerLastFetch(env, InitialTries, 0, "");
  }

  /** The last candidate is filled in after ten rejections, and a page
      without a banner then counts as passed with no submission counted. */
  lemma NeverDigitsStillPasses()
    ensures SolveSpec(Steady(None, "12a456", None)) == CaptchaRun(Ok(Report(true, "", 10, 0)), [])
  {
    var env := Steady(None, "12a456", None);
    NeverDigitsUsesAllRounds();
    RetryFaultless(env, InitialTries);
    assert SummaryText([]) == "";
  }

  // ----------------------------------------------------------- the engine

  /** One round of the closure's loop: fetch and count the captcha, take
      the cached answer or ask the solver, then either count a submission
      and fill the answer box or refresh the captcha. */
  method PlayRound(env: Env, st0: Tries) returns (r: RoundEnd)
    ensures r == Round(env, st0)
  {
    var e := env.shot(st0.solve);
    var st := st0.(solve := st0.solve + 1);
    if e.fetchFault.Some? {
      return Stop(Step(Err(e.fetchFault.value), st));
    }
    st := st.(cacheUrl := e.url, cache := true);
    var answer;
    if e.cached.Some? {
      answer := e.cached.value;
    } else {
      match e.solved {
        case Err(f) =>
          return Stop(Step(Err(f), st));
        case Ok(c) =>
          answer := c;
      }
      st := st.(cache := false);
    }
    if !Acceptable(answer, e.draw) {
      if e.refreshFault.Some? {
        return Stop(Step(Err(e.refreshFault.value), st));
      }
      return Again(st, answer);
    }
    st := st.(submit := st.submit + 1);
    r := Stop(Fill(env, st, answer));
  }

  /** The retried closure: up to ten rounds of fetch, solve (from the cache
      when it knows the URL) and validate; an acceptable answer is counted
      as a submission and ends the loop, a rejected one triggers a refresh;
      after ten rejections the answer box is filled with the last
      candidate. */
  method SolveOnce(env: Env, st0: Tries) returns (step: Step<Tries, string>)
    ensures step == Attempt(env, st0)
  {
    var st := st0;
    var answer := "";
    var i := 0;
    while i < InnerLimit
      invariant i <= InnerLimit
      invariant InnerFrom(env, st, i, answer) == Attempt(env, st0)
    {
      var r := PlayRound(env, st);
      match r {
        case Stop(s) =>
          return s;
        case Again(st', candidate) =>
          st, answer := st', candidate;
      }
      i := i + 1;
    }
    step := Fill(env, st, answer);
  }

  /** solveCaptchaAndSubmit: up to two turns of reading the summary,
      retrying the closure up to five times, submitting and reading the
      error banner; a turn whose submission the banner rejects leads to the
      next, and after two rejections the captcha counts as not passed. */
  method SolveCaptchaAndSubmit(env: Env) returns (run: CaptchaRun)
    ensures run == SolveSpec(env)
  {
    var st := InitialTries;
    var summary := "";
    var alerts: seq<string> := [];
    var i := 0;
    while i < OuterLimit
      invariant i <= OuterLimit
      invariant OuterFrom(env, AttemptTask(env), PageSummary, i, st, summary, alerts) == SolveSpec(env)
    {
      var pg := env.page(i);
      ghost var stBefore, summaryBefore := st, summary;
      summary := ExtractSummary(pg.bottomRuled, pg.topRuled);
      var retried := RunRetry(AttemptTask(env), st, RetryAttempts);
      if retried.verdict.Rethrown? {
        OuterRethrown(env, AttemptTask(env), PageSummary, i, stBefore, summaryBefore, alerts);
        match CatchMessage(retried.verdict.last) {
          case Ok(m) =>
            return CaptchaRun(Err(LotteryError(SolvingPrefix + m)), alerts);
          case Err(f) =>
            return CaptchaRun(Err(f), alerts);
        }
      }
      st := retried.state;
      if pg.errorText.Some? && pg.errorText.value != "" {
        var text := Trim(pg.errorText.value);
        if IsCaptchaRejection(text) {
          OuterContinues(env, AttemptTask(env), PageSummary, i, stBefore, summaryBefore, alerts);
          ghost var alertsBefore := alerts;
          if st.cache {
            alerts := alerts + [CacheAlertPrefix + st.cacheUrl];
          }
          assert alerts == WithCacheAlert(alertsBefore, st) && summary == PageSummary(pg);
          i := i + 1;
          continue;
        } else {
          return CaptchaRun(Err(LotteryError("Failed to submit lottery" + text)), alerts);
        }
      }
      OuterClean(env, AttemptTask(env), PageSummary, i, stBefore, summaryBefore, alerts);
      return CaptchaRun(Ok(Report(true, summary, st.solve, st.submit)), alerts);
    }
    run := CaptchaRun(Ok(Report(false, summary, st.solve, st.submit)), alerts);
  }
}

=== FILE: checkpoints.dfy ===
/** Reading back where the browser is: the navigation label and the section
    heading, normalised and compared with the label a stage expects
    (Automation.ts getCurrentNavigation, getCurrentHeading,
    assertCurrentNavigation, assertCurrentHeading and the credit-card
    heading poll), and the two index-guarded option clicks. */
module Checkpoints {
  import opened Errors
  import opened JsText

  /** The text as compared: trimmed, then the first line feed and the first
      tab removed (a string pattern in `replace` matches once). */
  function Normalise(raw: string): (r: string)
    ensures |r| <= |raw|
  {
    RemoveFirst(RemoveFirst(Trim(raw), '\n'), '\t')
  }

  /** Exactly one line feed and one tab are dropped, when there is one. */
  lemma NormaliseDropsOneEach(raw: string)
    ensures var t := Trim(raw);
            && Count(Normalise(raw), '\n') == (if Count(t, '\n') == 0 then 0 else Count(t, '\n') - 1)
            && Count(Normalise(raw), '\t') == (if Count(t, '\t') == 0 then 0 else Count(t, '\t') - 1)
  {
    RemoveFirstKeepsOthers(RemoveFirst(Trim(raw), '\n'), '\t', '\n');
    RemoveFirstKeepsOthers(Trim(raw), '\n', '\t');
  }

  /** A label without white space at its ends and without line feeds or
      tabs texts back as itself: every literal a stage expects is reachable. */
  lemma {:induction false} NormaliseKeepsLabel(lit: string)
    requires lit == [] || (!IsJsSpace(lit[0]) && !IsJsSpace(lit[|lit| - 1]))
    requires '\n' !in lit && '\t' !in lit
    ensures Normalise(lit) == lit
  {
    TrimKeeps(lit);
    RemoveFirstAbsent(lit, '\n');
    RemoveFirstAbsent(lit, '\t');
  }

  /** Only one line break is dropped: a label read back with two line feeds
      still holds one, so it can never equal a single-line expectation. */
  lemma TwoLineFeedsKeepOne(raw: string)
    requires Count(Trim(raw), '\n') == 2
    ensures '\n' in Normalise(raw)
  {
    NormaliseDropsOneEach(raw);
    CountPositive(Normalise(raw), '\n');
  }

  function ReachFailure(wanted: string): Failure
  {
    LotteryError("Failed to reach " + wanted)
  }

  /** assertCurrentNavigation / assertCurrentHeading on the text read from
      the probed element. */
  function AssertCheckpoint(raw: string, wanted: string): (r: Result<bool>)
    ensures r.Ok? <==> Normalise(raw) == wanted
    ensures r.Ok? ==> r.value
    ensures r.Err? ==> r.error == ReachFailure(wanted)
  {
    if Normalise(raw) == wanted then Ok(true) else Err(ReachFailure(wanted))
  }

  /** Some read among the first `polls` normalises to `wanted`. */
  predicate Reached(texts: nat -> string, wanted: string, polls: nat)
  {
    exists j: nat :: j < polls && Normalise(texts(j)) == wanted
  }

  /** A single-read check is exactly the assertion on that read. */
  lemma SingleReadIsAssert(texts: nat -> string, wanted: string)
    ensures Reached(texts, wanted, 1) <==> AssertCheckpoint(texts(0), wanted).Ok?
  {
    if AssertCheckpoint(texts(0), wanted).Ok? {
      assert Normalise(texts(0)) == wanted;
    }
  }

  /** The credit-card heading poll: read the label up to `polls` times and
      stop at the first read that matches; fail with `failure` otherwise. */
  method AwaitCheckpoint(texts: nat -> string, wanted: string, polls: nat, failure: Failure)
    returns (r: Result<nat>)
    ensures r.Ok? ==> r.value < polls && Normalise(texts(r.value)) == wanted
    ensures r.Ok? ==> forall j: nat :: j < r.value ==> Normalise(texts(j)) != wanted
    ensures r.Err? <==> !Reached(texts, wanted, polls)
    ensures r.Err? ==> r.error == failure
  {
    var found := false;
    var at := 0;
    var i := 0;
    while i < polls
      invariant i <= polls
      invariant forall j: nat :: j < i ==> Normalise(texts(j)) != wanted
    {
      if Normalise(texts(i)) == wanted {
        found := true;
        at := i;
        break;
      }
      i := i + 1;
    }
    if !found {
      return Err(failure);
    }
    r := Ok(at);
  }

  /** selectShow: the zero-based option clicked for a one-based show
      number, `None` when the number is past the last option (nothing is
      clicked) and a TypeError when it is below one (there is no element at
      a negative index to click). */
  function SelectShow(showNo: int, options: nat): (r: Result<Option<nat>>)
    ensures r.Ok? && r.value.Some? ==> r.value.value < options && r.value.value + 1 == showNo
    ensures r == Ok(None) <==> showNo > options
    ensures r.Err? <==> showNo < 1
    ensures r.Err? ==> r.error == TypeError(UndefinedClick)
  {
    var zeroBased := showNo - 1;
    if zeroBased < options then
      if zeroBased >= 0 then Ok(Some(zeroBased)) else Err(TypeError(UndefinedClick))
    else Ok(None)
  }

  /** selectSSSeat: the first seat-class option is clicked; with no option
      there is nothing at index 0 and the click raises a TypeError. */
  function SelectSeat(options: nat): (r: Result<nat>)
    ensures r.Ok? <==> options > 0
    ensures r.Ok? ==> r.value == 0 && r.value < options
    ensures r.Err? ==> r.error == TypeError(UndefinedClick)
  {
    if options > 0 then Ok(0) else Err(TypeError(UndefinedClick))
  }
}

=== FILE: errors.dfy ===
/** Values shared by every part of the submission engine: optional values and
    the closed set of exceptions the engine can raise. */
module Errors {

  datatype Option<+T> = None | Some(value: T)

  /** The exceptions that leave the engine, as a closed tagged variant.
      LotteryError and CaptchaError are the engine's own subclasses of Error;
      PlainError is a bare `Error` (format errors, the address time-out);
      TypeError is what the JavaScript runtime raises on a property read of
      `undefined`. Page failures reported by the browser are also carried in
      one of these. */
  datatype Failure =
    | LotteryError(message: string)
    | CaptchaError(message: string)
    | PlainError(message: string)
    | TypeError(message: string)

  /** A value or the exception that was thrown instead of it. */
  datatype Result<+T> = Ok(value: T) | Err(error: Failure)

  /** The runtime's message for `undefined.trim()`. */
  const UndefinedTrim: string := "Cannot read properties of undefined (reading 'trim')"

  /** The runtime's message for `undefined.click()`. */
  const UndefinedClick: string := "Cannot read properties of undefined (reading 'click')"
}

=== FILE: fields.dfy ===
/** The pure rules that derive form-field values from an application record
    (Automation.ts: splitDate, splitZipcode, parsePhoneNumber, parsePhoneFull
    and the peer-name split inside the overseas flow). */
module Fields {
  import opened Errors
  import opened JsText

  function Min(a: nat, b: nat): nat { if a <= b then a else b }

  lemma Join2(parts: seq<string>)
    requires |parts| == 2
    ensures Join(parts, "-") == parts[0] + "-" + parts[1]
  {
    assert parts[1..] == [parts[1]];
  }

  lemma Join3(parts: seq<string>)
    requires |parts| == 3
    ensures Join(parts, "-") == parts[0] + "-" + parts[1] + "-" + parts[2]
  {
    Join2(parts[1..]);
    assert parts[1..][0] == parts[1] && parts[1..][1] == parts[2];
  }

  // ---------------------------------------------------------------- dates

  datatype DateParts = DateParts(year: string, month: string, day: string)

  const DateFormatError: Failure := PlainError("Invalid date format. Please use 'YYYY-MM-DD'.")

  /** `splitDate`: the three hyphen-separated parts of a birth date. */
  function SplitDate(date: string): (r: Result<DateParts>)
    ensures r.Ok? <==> Count(date, '-') == 2
    ensures r.Ok? ==> r.value.year + "-" + r.value.month + "-" + r.value.day == date
    ensures r.Ok? ==> '-' !in r.value.year && '-' !in r.value.month && '-' !in r.value.day
    ensures r.Err? ==> r.error == DateFormatError
  {
    var parts := Split(date, '-');
    if |parts| != 3 then Err(DateFormatError)
    else
      Join3(parts);
      Ok(DateParts(parts[0], parts[1], parts[2]))
  }

  /** Round trip: a date assembled from hyphen-free parts splits back into
      exactly those parts. */
  lemma SplitDateOfJoin(year: string, month: string, day: string)
    requires '-' !in year && '-' !in month && '-' !in day
    ensures SplitDate(year + "-" + month + "-" + day) == Ok(DateParts(year, month, day))
  {
    var parts := [year, month, day];
    Join3(parts);
    SplitJoin(parts, '-');
  }

  // ------------------------------------------------------------ zip codes

  datatype ZipParts = ZipParts(first: string, last: string)

  const ZipFormatError: Failure := PlainError("Invalid zipcode format. Please use 'XXX-XXXX'.")

  /** `splitZipcode`: the two hyphen-separated halves of a postal code. */
  function SplitZipcode(zipcode: string): (r: Result<ZipParts>)
    ensures r.Ok? <==> Count(zipcode, '-') == 1
    ensures r.Ok? ==> r.value.first + "-" + r.value.last == zipcode
    ensures r.Ok? ==> '-' !in r.value.first && '-' !in r.value.last
    ensures r.Err? ==> r.error == ZipFormatError
  {
    var parts := Split(zipcode, '-');
    if |parts| != 2 then Err(ZipFormatError)
    else
      Join2(parts);
      Ok(ZipParts(parts[0], parts[1]))
  }

  /** Round trip for postal codes. */
  lemma SplitZipcodeOfJoin(first: string, last: string)
    requires '-' !in first && '-' !in last
    ensures SplitZipcode(first + "-" + last) == Ok(ZipParts(first, last))
  {
    var parts := [first, last];
    Join2(parts);
    SplitJoin(parts, '-');
  }

  // --------------------------------------------------------------- phones

  datatype PhoneParts = PhoneParts(firstThree: string, middleFour: string, lastFour: string)

  /** `parsePhoneNumber`: the number cut from its end into the last four
      characters, the four before them and whatever precedes those. */
  function ParsePhoneNumber(phone: string): (r: PhoneParts)
    ensures r.firstThree + r.middleFour + r.lastFour == phone
    ensures r.lastFour == phone[|phone| - Min(4, |phone|)..]
    ensures r.middleFour == phone[|phone| - Min(8, |phone|)..|phone| - Min(4, |phone|)]
    ensures r.firstThree == phone[..|phone| - Min(8, |phone|)]
  {
    PhoneParts(Slice(phone, 0, -8), Slice(phone, -8, -4), SliceFrom(phone, -4))
  }

  /** `parsePhoneFull`: only the last eleven characters are kept. */
  function ParsePhoneFull(phone: string): (r: string)
    ensures r == phone[|phone| - Min(11, |phone|)..]
    ensures |phone| <= 11 ==> r == phone
    ensures |r| == Min(11, |phone|)
  {
    SliceFrom(phone, -11)
  }

  // ----------------------------------------------------------- peer names

  datatype PeerName = PeerName(first: string, last: string)

  /** The peer-name split of the overseas flow: `split(" ")`, then the first
      two pieces trimmed. A name without a space has no second piece, and
      trimming `undefined` raises a TypeError. */
  function SplitPeerName(name: string): (r: Result<PeerName>)
    ensures r.Ok? <==> ' ' in name
    ensures r.Err? ==> r.error == TypeError(UndefinedTrim)
  {
    var parts := Split(name, ' ');
    CountPositive(name, ' ');
    if |parts| < 2 then Err(TypeError(UndefinedTrim))
    else Ok(PeerName(Trim(parts[0]), Trim(parts[1])))
  }

  /** Two space-free tokens give the two trimmed tokens. */
  lemma SplitPeerNameTwo(first: string, last: string)
    requires ' ' !in first && ' ' !in last
    ensures SplitPeerName(first + " " + last) == Ok(PeerName(Trim(first), Trim(last)))
  {
    SplitPrefix(first, ' ', last);
    SplitPlain(last, ' ');
  }

  /** Tokens after the second one are silently dropped. */
  lemma SplitPeerNameDropsRest(first: string, last: string, rest: string)
    requires ' ' !in first && ' ' !in last
    ensures SplitPeerName(first + " " + last + " " + rest) == Ok(PeerName(Trim(first), Trim(last)))
  {
    assert first + " " + last + " " + rest == first + [' '] + (last + [' '] + rest);
    SplitPrefix(first, ' ', last + [' '] + rest);
    SplitPrefix(last, ' ', rest);
  }
}

=== FILE: flow.dfy ===
/** The two lottery procedures (Automation.ts completeOverseaLottery and
    completeInlandLottery): a fixed sequence of checkpoints, derived form
    fields, option clicks and waits, then the captcha, a final checkpoint
    and the accepted-application summary.

    The browser is an oracle: each value the procedure reads from the page
    is a field of the site record, and every click and fill is taken to
    succeed. A stage that fails ends the procedure with its error; which
    values are typed into the form is not traced. */
module Flow {
  import opened Errors
  import opened JsText
  import opened Fields
  import opened Checkpoints
  import Address
  import Captcha

  /** The parts of an application record that decide how a procedure runs. */
  datatype Applicant = Applicant(birth: string, phone: string, postalCode: string,
                                 peerName: string, peerPhone: string, showNo: int)

  /** What the overseas procedure reads from the site, in the order it reads
      it: the navigation and heading of the input page, the heading of the
      show page, how many show and seat options there are, the heading at
      each round of the credit-card wait, the captcha stage, the navigation
      after it and the acceptance number. */
  datatype OverseaSite = OverseaSite(
    navInput: string, headingInput: string, headingShow: string,
    showOptions: nat, seatOptions: nat, cardHeadings: nat -> string,
    captcha: Captcha.Env, navDone: string, acptNo: string)

  /** What the inland procedure reads: as above, plus the rounds of the
      address wait, the error texts under the first page and under the
      ticket-account form (`None` when the element is absent), the
      payment and pick-up headings and the navigation of the confirmation
      page. */
  datatype InlandSite = InlandSite(
    navInput: string, headingInput: string, addressRounds: nat -> Address.PollRead,
    pageOneError: Option<string>, headingShow: string, showOptions: nat, seatOptions: nat,
    headingPayment: string, headingPickup: string, accountError: Option<string>,
    navConfirm: string, captcha: Captcha.Env, navDone: string, acptNo: string)

  /** What a procedure returns on success. */
  datatype Submission = Submission(acptNo: string, summary: string)

  /** A whole run: the result and the alerts sent on the way. */
  datatype FlowRun = FlowRun(result: Result<Submission>, alerts: seq<string>)

  const CardPolls := 100
  const CardHeading := "Ticket Issuance select"
  const CardFailure: Failure := LotteryError("Unable to submit credit card")
  const CaptchaFailure: Failure := CaptchaError("Failed to solve captcha")
  const OverseaDone := "Completion of Application"
  const OverseaDoneFailure: Failure := LotteryError("Unable to submit application, check credit card information")
  const InlandDone := "申込完了"
  const PageOnePrefix := "Failed to submit page 1"
  const AccountPrefix := "Failed to submit account"

  // ------------------------------------------------------------ stages

  /** The error a stage raised, if any. */
  function ErrorOf<T>(r: Result<T>): (e: Option<Failure>)
    ensures e.Some? <==> r.Err?
  {
    if r.Err? then Some(r.error) else None
  }

  /** An error element that is present and says something fails the stage
      with `prefix` followed by its text. */
  function ProbeError(found: Option<string>, prefix: string): (e: Option<Failure>)
    ensures e.Some? <==> found.Some? && found.value != ""
    ensures e.Some? ==> e.value.LotteryError? && e.value.message == prefix + found.value
  {
    if found.Some? && found.value != "" then Some(LotteryError(prefix + found.value)) else None
  }

  /** The first line of the summary: which procedure, the acceptance number
      and the captcha counters, then the page summary. */
  function Accepted(procedure: string, acptNo: string, report: Captcha.Report): (s: string)
    ensures procedure + " Accepted: " + acptNo + "\nCaptchaRun: " <= s
    ensures |report.summary| <= |s| && s[|s| - |report.summary|..] == report.summary
  {
    procedure + " Accepted: " + acptNo + "\nCaptchaRun: "
      + Decimal(report.solveTries) + "," + Decimal(report.submitTries) + "\n" + report.summary
  }

  /** The counters in the summary read back as the captcha run's counters. */
  lemma AcceptedCounters(procedure: string, acptNo: string, report: Captcha.Report)
    ensures exists solve: string, submit: string ::
              && Accepted(procedure, acptNo, report)
                 == procedure + " Accepted: " + acptNo + "\nCaptchaRun: " + solve + "," + submit + "\n" + report.summary
              && IsDigits(solve) && IsDigits(submit)
              && DecimalValue(solve) == report.solveTries && DecimalValue(submit) == report.submitTries
  {
    DecimalRoundTrip(report.solveTries);
    DecimalRoundTrip(report.submitTries);
    var solve, submit := Decimal(report.solveTries), Decimal(report.submitTries);
    assert Accepted(procedure, acptNo, report)
           == procedure + " Accepted: " + acptNo + "\nCaptchaRun: " + solve + "," + submit + "\n" + report.summary;
  }

  /** The common end of both procedures, once every earlier stage passed:
      the captcha stage, whose error is passed on and whose failure to pass
      is a CaptchaError, then the final checkpoint. */
  function Finish(captcha: Captcha.CaptchaRun, done: Option<Failure>, procedure: string, acptNo: string): FlowRun
  {
    FlowRun(
      match captcha.outcome
      case Err(e) => Err(e)
      case Ok(report) =>
        if !report.passed then Err(CaptchaFailure)
        else if done.Some? then Err(done.value)
        else Ok(Submission(acptNo, Accepted(procedure, acptNo, report))),
      captcha.alerts)
  }

  /** The show and seat pages, common to both procedures: the show page
      heading, the show option, the seat option. */
  function ChoiceFailure(heading: string, wanted: string, showNo: int, showOptions: nat,
                         seatOptions: nat): Option<Failure>
  {
    var show := ErrorOf(AssertCheckpoint(heading, wanted));
    if show.Some? then show else
    var clicked := ErrorOf(SelectShow(showNo, showOptions));
    if clicked.Some? then clicked else
    ErrorOf(SelectSeat(seatOptions))
  }

  // ---------------------------------------------------------- overseas

  /** The stage before the captcha failed: the procedure ends with its
      error, and no alert has been sent. */
  function Fail(e: Failure): FlowRun
  {
    FlowRun(Err(e), [])
  }

  /** completeOverseaLottery, stage by stage. The phone numbers are derived
      for the form and cannot fail. */
  function OverseaSpec(a: Applicant, site: OverseaSite): FlowRun
  {
    match OverseaFailure(a, site)
    case Some(e) => Fail(e)
    case None =>
      Finish(Captcha.SolveSpec(site.captcha),
             if Normalise(site.navDone) != OverseaDone then Some(OverseaDoneFailure) else None,
             "Oversea", site.acptNo)
  }

  /** The error of the first stage before the captcha that fails, if any:
      the input page, then the show and seat pages, then the credit-card
      wait. */
  function OverseaFailure(a: Applicant, site: OverseaSite): Option<Failure>
  {
    var input := OverseaInputFailure(a, site);
    if input.Some? then input else
    var choice := ChoiceFailure(site.headingShow, "Priority 1", a.showNo, site.showOptions, site.seatOptions);
    if choice.Some? then choice else
    if Reached(site.cardHeadings, CardHeading, CardPolls) then None else Some(CardFailure)
  }

  /** The overseas input page: its two labels, the birth date and the peer
      name. */
  function OverseaInputFailure(a: Applicant, site: OverseaSite): Option<Failure>
  {
    var nav := ErrorOf(AssertCheckpoint(site.navInput, "Application Input"));
    if nav.Some? then nav else
    var heading := ErrorOf(AssertCheckpoint(site.headingInput, "Entry of your information input"));
    if heading.Some? then heading else
    var date := ErrorOf(SplitDate(a.birth));
    if date.Some? then date else
    ErrorOf(SplitPeerName(a.peerName))
  }

  /** The overseas input page, each check in turn, the first error ending
      it. */
  method OverseaInputChecks(a: Applicant, site: OverseaSite) returns (failure: Option<Failure>)
    ensures failure == OverseaInputFailure(a, site)
  {
    var nav := AssertCheckpoint(site.navInput, "Application Input");
    if nav.Err? {
      return Some(nav.error);
    }
    var heading := AssertCheckpoint(site.headingInput, "Entry of your information input");
    if heading.Err? {
      return Some(heading.error);
    }
    var date := SplitDate(a.birth);
    if date.Err? {
      return Some(date.error);
    }
    var phone := ParsePhoneNumber(a.phone);
    var peer := SplitPeerName(a.peerName);
    if peer.Err? {
      return Some(peer.error);
    }
    var peerPhone := ParsePhoneFull(a.peerPhone);
    failure := None;
  }

  /** The overseas procedure up to the captcha: each stage in turn, the first
      error ending it. */
  method OverseaChecks(a: Applicant, site: OverseaSite) returns (failure: Option<Failure>)
    ensures failure == OverseaFailure(a, site)
  {
    failure := OverseaInputChecks(a, site);
    if failure.Some? {
      return;
    }
    var show := AssertCheckpoint(site.headingShow, "Priority 1");
    if show.Err? {
      return Some(show.error);
    }
    var clicked := SelectShow(a.showNo, site.showOptions);
    if clicked.Err? {
      return Some(clicked.error);
    }
    var seat := SelectSeat(site.seatOptions);
    if seat.Err? {
      return Some(seat.error);
    }
    var card := AwaitCheckpoint(site.cardHeadings, CardHeading, CardPolls, CardFailure);
    if card.Err? {
      return Some(card.error);
    }
    failure := None;
  }

  /** completeOverseaLottery. */
  method CompleteOversea(a: Applicant, site: OverseaSite) returns (run: FlowRun)
    ensures run == OverseaSpec(a, site)
  {
    var failure := OverseaChecks(a, site);
    if failure.Some? {
      return Fail(failure.value);
    }
    var captcha := Captcha.SolveCaptchaAndSubmit(site.captcha);
    if captcha.outcome.Err? {
      return FlowRun(Err(captcha.outcome.error), captcha.alerts);
    }
    var report := captcha.outcome.value;
    if !report.passed {
      return FlowRun(Err(CaptchaFailure), captcha.alerts);
    }
    if Normalise(site.navDone) != OverseaDone {
      return FlowRun(Err(OverseaDoneFailure), captcha.alerts);
    }
    run := FlowRun(Ok(Submission(site.acptNo, Accepted("Oversea", site.acptNo, report))), captcha.alerts);
  }

  // ------------------------------------------------------------ inland

  /** completeInlandLottery, stage by stage. The phone numbers are derived
      for the form and cannot fail. */
  function InlandSpec(a: Applicant, site: InlandSite): FlowRun
  {
    match InlandFailure(a, site)
    case Some(e) => Fail(e)
    case None =>
      Finish(Captcha.SolveSpec(site.captcha), ErrorOf(AssertCheckpoint(site.navDone, InlandDone)),
             "Inland", site.acptNo)
  }

  /** The error of the first stage before the captcha that fails, if any:
      the input page, then the show and seat pages, then the payment,
      pick-up and confirmation pages. */
  function InlandFailure(a: Applicant, site: InlandSite): Option<Failure>
  {
    var input := InlandInputFailure(a, site);
    if input.Some? then input else
    var choice := ChoiceFailure(site.headingShow, "第1希望", a.showNo, site.showOptions, site.seatOptions);
    if choice.Some? then choice else
    InlandPaymentFailure(site)
  }

  /** The inland input page: its two labels, the birth date, the postal
      code, the address wait and the error shown once the page is sent. */
  function InlandInputFailure(a: Applicant, site: InlandSite): Option<Failure>
  {
    var nav := ErrorOf(AssertCheckpoint(site.navInput, "申込入力"));
    if nav.Some? then nav else
    var heading := ErrorOf(AssertCheckpoint(site.headingInput, "お客様情報入力"));
    if heading.Some? then heading else
    var date := ErrorOf(SplitDate(a.birth));
    if date.Some? then date else
    var zip := ErrorOf(SplitZipcode(a.postalCode));
    if zip.Some? then zip else
    var address := ErrorOf(Address.PollResult(Address.AwaitSpec(site.addressRounds)));
    if address.Some? then address else
    ProbeError(site.pageOneError, PageOnePrefix)
  }

  /** The payment and pick-up pages and the confirmation navigation. */
  function InlandPaymentFailure(site: InlandSite): Option<Failure>
  {
    var payment := ErrorOf(AssertCheckpoint(site.headingPayment, "決済方法選択"));
    if payment.Some? then payment else
    var pickup := ErrorOf(AssertCheckpoint(site.headingPickup, "引取方法確認"));
    if pickup.Some? then pickup else
    var account := ProbeError(site.accountError, AccountPrefix);
    if account.Some? then account else
    ErrorOf(AssertCheckpoint(site.navConfirm, "内容確認"))
  }

  /** The inland procedure up to the captcha: each stage in turn, the first
      error ending it. */
  method InlandChecks(a: Applicant, site: InlandSite) returns (failure: Option<Failure>)
    ensures failure == InlandFailure(a, site)
  {
    var nav := AssertCheckpoint(site.navInput, "申込入力");
    if nav.Err? {
      return Some(nav.error);
    }
    var heading := AssertCheckpoint(site.headingInput, "お客様情報入力");
    if heading.Err? {
      return Some(heading.error);
    }
    var date := SplitDate(a.birth);
    if date.Err? {
      return Some(date.error);
    }
    var phone := ParsePhoneNumber(a.phone);
    var zip := SplitZipcode(a.postalCode);
    if zip.Err? {
      return Some(zip.error);
    }
    var wait, reclicks := Address.AwaitAddress(site.addressRounds);
    var address := Address.PollResult(wait);
    if address.Err? {
      return Some(address.error);
    }
    var peerPhone := ParsePhoneFull(a.peerPhone);
    var pageOne := ProbeError(site.pageOneError, PageOnePrefix);
    if pageOne.Some? {
      return pageOne;
    }
    var show := AssertCheckpoint(site.headingShow, "第1希望");
    if show.Err? {
      return Some(show.error);
    }
    var clicked := SelectShow(a.showNo, site.showOptions);
    if clicked.Err? {
      return Some(clicked.error);
    }
    var seat := SelectSeat(site.seatOptions);
    if seat.Err? {
      return Some(seat.error);
    }
    var payment := AssertCheckpoint(site.headingPayment, "決済方法選択");
    if payment.Err? {
      return Some(payment.error);
    }
    var pickup := AssertCheckpoint(site.headingPickup, "引取方法確認");
    if pickup.Err? {
      return Some(pickup.error);
    }
    var account := ProbeError(site.accountError, AccountPrefix);
    if account.Some? {
      return account;
    }
    var confirm := AssertCheckpoint(site.navConfirm, "内容確認");
    if confirm.Err? {
      return Some(confirm.error);
    }
    failure := None;
  }

  /** completeInlandLottery. */
  method CompleteInland(a: Applicant, site: InlandSite) returns (run: FlowRun)
    ensures run == InlandSpec(a, site)
  {
    var failure := InlandChecks(a, site);
    if failure.Some? {
      return Fail(failure.value);
    }
    var captcha := Captcha.SolveCaptchaAndSubmit(site.captcha);
    if captcha.outcome.Err? {
      return FlowRun(Err(captcha.outcome.error), captcha.alerts);
    }
    var report := captcha.outcome.value;
    if !report.passed {
      return FlowRun(Err(CaptchaFailure), captcha.alerts);
    }
    var done := AssertCheckpoint(site.navDone, InlandDone);
    if done.Err? {
      return FlowRun(Err(done.error), captcha.alerts);
    }
    run := FlowRun(Ok(Submission(site.acptNo, Accepted("Inland", site.acptNo, report))), captcha.alerts);
  }

  // ----------------------------------------------------------- properties

  /** The common end: a run succeeds exactly when the captcha stage
      returned, passed and the final checkpoint held, and then returns the
      acceptance number and the summary headed by the captcha counters,
      which stay within the captcha stage's budget. Any other error comes
      from the captcha stage or the final checkpoint, and the alerts are
      the captcha stage's. */
  lemma FinishFacts(env: Captcha.Env, done: Option<Failure>, procedure: string, acptNo: string)
    ensures var c := Captcha.SolveSpec(env);
            var r := Finish(c, done, procedure, acptNo);
            && (r.result.Ok? <==> c.outcome.Ok? && c.outcome.value.passed && done.None?)
            && (r.result.Ok? ==>
                  && r.result.value == Submission(acptNo, Accepted(procedure, acptNo, c.outcome.value))
                  && c.outcome.value.solveTries <= 100
                  && c.outcome.value.submitTries <= c.outcome.value.solveTries)
            && (r.result.Err? ==>
                  || r.result.error == CaptchaFailure
                  || Some(r.result.error) == done
                  || (r.result.error.LotteryError? && Captcha.SolvingPrefix <= r.result.error.message))
            && r.alerts == c.alerts && |r.alerts| <= 2
  {
    Captcha.SolveFacts(env);
  }

  /** The show and seat pages pass exactly when the heading reads back,
      the show number is at least one (a number past the last option
      clicks nothing and is no error) and there is a seat option; they
      fail with the checkpoint error or the TypeError of a missing option. */
  lemma ChoicePasses(heading: string, wanted: string, showNo: int, showOptions: nat, seatOptions: nat)
    ensures ChoiceFailure(heading, wanted, showNo, showOptions, seatOptions).None? <==>
              Normalise(heading) == wanted && showNo >= 1 && seatOptions > 0
    ensures ChoiceFailure(heading, wanted, showNo, showOptions, seatOptions).Some? ==>
              ChoiceFailure(heading, wanted, showNo, showOptions, seatOptions).value
                in {ReachFailure(wanted), TypeError(UndefinedClick)}
  {
  }

  /** The overseas input page passes exactly when both labels read back as
      expected, the birth date has two hyphens and the peer name a space. */
  lemma OverseaInputPasses(a: Applicant, site: OverseaSite)
    ensures OverseaInputFailure(a, site).None? <==>
              && Normalise(site.navInput) == "Application Input"
              && Normalise(site.headingInput) == "Entry of your information input"
              && Count(a.birth, '-') == 2
              && ' ' in a.peerName
  {
  }

  /** The overseas stages before the captcha all pass exactly when the
      input page passes, the show page heading reads back, the show number
      is at least one, there is a seat option and the credit-card heading
      appears within 100 reads. */
  lemma OverseaPasses(a: Applicant, site: OverseaSite)
    ensures OverseaFailure(a, site).None? <==>
              && OverseaInputFailure(a, site).None?
              && Normalise(site.headingShow) == "Priority 1"
              && a.showNo >= 1
              && site.seatOptions > 0
              && Reached(site.cardHeadings, CardHeading, CardPolls)
  {
    ChoicePasses(site.headingShow, "Priority 1", a.showNo, site.showOptions, site.seatOptions);
  }

  /** The overseas procedure succeeds exactly when every stage before the
      captcha passes, the captcha is passed and the completion page is
      reached; alerts are only ever sent once the captcha stage is reached. */
  lemma OverseaOutcome(a: Applicant, site: OverseaSite)
    ensures var c := Captcha.SolveSpec(site.captcha);
            var r := OverseaSpec(a, site);
            && (r.result.Ok? <==>
                  && OverseaFailure(a, site).None?
                  && c.outcome.Ok? && c.outcome.value.passed
                  && Normalise(site.navDone) == OverseaDone)
            && (r.result.Ok? ==>
                  r.result.value == Submission(site.acptNo, Accepted("Oversea", site.acptNo, c.outcome.value)))
            && (r.alerts != [] ==> OverseaFailure(a, site).None?)
            && |r.alerts| <= 2
  {
    var done := if Normalise(site.navDone) != OverseaDone then Some(OverseaDoneFailure) else None;
    if OverseaFailure(a, site).None? {
      FinishFacts(site.captcha, done, "Oversea", site.acptNo);
      assert OverseaSpec(a, site) == Finish(Captcha.SolveSpec(site.captcha), done, "Oversea", site.acptNo);
    } else {
      assert OverseaSpec(a, site) == Fail(OverseaFailure(a, site).value);
    }
  }

  /** The inland input page passes exactly when both labels read back, the
      birth date has two hyphens, the postal code one, the address search
      filled the first line and the page shows no error text once sent. */
  lemma InlandInputPasses(a: Applicant, site: InlandSite)
    ensures InlandInputFailure(a, site).None? <==>
              && Normalise(site.navInput) == "申込入力"
              && Normalise(site.headingInput) == "お客様情報入力"
              && Count(a.birth, '-') == 2
              && Count(a.postalCode, '-') == 1
              && Address.AwaitSpec(site.addressRounds).Found?
              && (site.pageOneError.None? || site.pageOneError.value == "")
  {
  }

  /** The payment part passes exactly when the payment and pick-up headings
      and the confirmation navigation read back and the ticket-account form
      shows no error text. */
  lemma InlandPaymentPasses(site: InlandSite)
    ensures InlandPaymentFailure(site).None? <==>
              && Normalise(site.headingPayment) == "決済方法選択"
              && Normalise(site.headingPickup) == "引取方法確認"
              && (site.accountError.None? || site.accountError.value == "")
              && Normalise(site.navConfirm) == "内容確認"
  {
  }

  /** The inland stages before the captcha all pass exactly when the input
      page, the show and seat pages and the payment part all pass. */
  lemma InlandPasses(a: Applicant, site: InlandSite)
    ensures InlandFailure(a, site).None? <==>
              && InlandInputFailure(a, site).None?
              && Normalise(site.headingShow) == "第1希望"
              && a.showNo >= 1
              && site.seatOptions > 0
              && InlandPaymentFailure(site).None?
  {
    ChoicePasses(site.headingShow, "第1希望", a.showNo, site.showOptions, site.seatOptions);
  }

  /** The inland procedure succeeds exactly when every stage before the
      captcha passes, the captcha is passed and the completion page is
      reached; alerts are only ever sent once the captcha stage is reached. */
  lemma InlandOutcome(a: Applicant, site: InlandSite)
    ensures var c := Captcha.SolveSpec(site.captcha);
            var r := InlandSpec(a, site);
            && (r.result.Ok? <==>
                  && InlandFailure(a, site).None?
                  && c.outcome.Ok? && c.outcome.value.passed
                  && Normalise(site.navDone) == InlandDone)
            && (r.result.Ok? ==>
                  r.result.value == Submission(site.acptNo, Accepted("Inland", site.acptNo, c.outcome.value)))
            && (r.alerts != [] ==> InlandFailure(a, site).None?)
            && |r.alerts| <= 2
  {
    FinishFacts(site.captcha, ErrorOf(AssertCheckpoint(site.navDone, InlandDone)), "Inland", site.acptNo);
  }

  /** Once the stages before it pass, the address wait decides the inland
      procedure when it does not find the address: a rejected postal code
      and a wait that ran out end it with their own errors. */
  lemma InlandAddressDecides(a: Applicant, site: InlandSite)
    requires Normalise(site.navInput) == "申込入力" && Normalise(site.headingInput) == "お客様情報入力"
    requires Count(a.birth, '-') == 2 && Count(a.postalCode, '-') == 1
    ensures !Address.AwaitSpec(site.addressRounds).Found? ==>
              InlandSpec(a, site) == Fail(if Address.AwaitSpec(site.addressRounds).ZipRejected?
                                          then Address.ZipFailure else Address.NetworkFailure)
  {
  }

  // ------------------------------------------------------------ scenarios

  /** The summary of a run whose first captcha answer was accepted on a
      page without a summary table. */
  lemma AcceptedFirstAnswer(acptNo: string)
    ensures Accepted("Oversea", acptNo, Captcha.Report(true, "", 1, 1))
            == "Oversea Accepted: " + acptNo + "\nCaptchaRun: 1,1\n"
    ensures Accepted("Inland", acptNo, Captcha.Report(true, "", 1, 1))
            == "Inland Accepted: " + acptNo + "\nCaptchaRun: 1,1\n"
  {
    assert Decimal(1) == "1";
    assert "\nCaptchaRun: " + "1" + "," + "1" + "\n" + "" == "\nCaptchaRun: 1,1\n";
    assert "Oversea" + " Accepted: " == "Oversea Accepted: ";
    assert "Inland" + " Accepted: " == "Inland Accepted: ";
  }

  /** Every stage passes and the first captcha answer is accepted: the
      overseas procedure returns the acceptance number and a summary that
      records one fetch and one submission, and sends no alert. */
  lemma OverseaFirstAnswer(a: Applicant, site: OverseaSite)
    ensures var s := site.(captcha := Captcha.Steady(None, "123456", None));
            OverseaFailure(a, s).None? && Normalise(s.navDone) == OverseaDone ==>
              OverseaSpec(a, s)
              == FlowRun(Ok(Submission(s.acptNo, "Oversea Accepted: " + s.acptNo + "\nCaptchaRun: 1,1\n")), [])
  {
    var s := site.(captcha := Captcha.Steady(None, "123456", None));
    if OverseaFailure(a, s).None? && Normalise(s.navDone) == OverseaDone {
      var c := Captcha.SolveSpec(s.captcha);
      Captcha.FirstAnswerPasses();
      assert c == Captcha.CaptchaRun(Ok(Captcha.Report(true, "", 1, 1)), []);
      assert OverseaSpec(a, s) == Finish(c, None, "Oversea", s.acptNo);
      AcceptedFirstAnswer(s.acptNo);
    }
  }

  /** The same for the inland procedure. */
  lemma InlandFirstAnswer(a: Applicant, site: InlandSite)
    ensures var s := site.(captcha := Captcha.Steady(None, "123456", None));
            InlandFailure(a, s).None? && Normalise(s.navDone) == InlandDone ==>
              InlandSpec(a, s)
              == FlowRun(Ok(Submission(s.acptNo, "Inland Accepted: " + s.acptNo + "\nCaptchaRun: 1,1\n")), [])
  {
    var s := site.(captcha := Captcha.Steady(None, "123456", None));
    if InlandFailure(a, s).None? && Normalise(s.navDone) == InlandDone {
      var c := Captcha.SolveSpec(s.captcha);
      Captcha.FirstAnswerPasses();
      assert c == Captcha.CaptchaRun(Ok(Captcha.Report(true, "", 1, 1)), []);
      assert InlandSpec(a, s) == Finish(c, None, "Inland", s.acptNo);
      AcceptedFirstAnswer(s.acptNo);
    }
  }
}

=== FILE: retry.dfy ===
/** The bounded retry controller (Automation.ts `retry`).

    The retried task is an asynchronous closure; what it does on each call
    depends on the variables it has captured, which it may also update. It
    is modelled as a function from the captured state to one call's result
    and the state after the call. */
module Retry {
  import opened Errors

  /** One call of `task`: what it returned or threw, and the captured
      state afterwards. */
  datatype Step<S, T> = Step(out: Result<T>, next: S)

  /** How `retry` ends: with the value of a successful call, or by
      rethrowing the last error (`undefined` when `task` never ran). */
  datatype Verdict<T> = Returned(value: T) | Rethrown(last: Option<Failure>)

  /** A whole run: the verdict, the captured state at the end and the
      number of calls made. */
  datatype Run<S, T> = Run(verdict: Verdict<T>, state: S, calls: nat)

  /** The captured state after `n` calls. */
  function StateAfter<S, T>(task: S -> Step<S, T>, s: S, n: nat): S
  {
    if n == 0 then s else task(StateAfter(task, s, n - 1)).next
  }

  /** What the call numbered `n` (from 0) returns or throws. */
  function OutcomeAt<S, T>(task: S -> Step<S, T>, s: S, n: nat): Result<T>
  {
    task(StateAfter(task, s, n)).out
  }

  /** The loop of `retry` from call `i` on, with `last` the error of the
      previous call. */
  function RetryFrom<S, T>(task: S -> Step<S, T>, s: S, i: nat, attempts: int,
                           last: Option<Failure>): Run<S, T>
    decreases attempts - i
  {
    if i >= attempts then Run(Rethrown(last), s, i)
    else
      var step := task(s);
      match step.out
      case Ok(v) => Run(Returned(v), step.next, i + 1)
      case Err(e) => RetryFrom(task, step.next, i + 1, attempts, Some(e))
  }

  /** `retry(task, attempts)` started from captured state `s`. */
  function RetrySpec<S, T>(task: S -> Step<S, T>, s: S, attempts: int): Run<S, T>
  {
    RetryFrom(task, s, 0, attempts, None)
  }

  /** The retry loop itself. */
  method RunRetry<S, T>(task: S -> Step<S, T>, s0: S, attempts: int) returns (run: Run<S, T>)
    ensures run == RetrySpec(task, s0, attempts)
    ensures run.calls <= if attempts < 0 then 0 else attempts
  {
    var s := s0;
    var last: Option<Failure> := None;
    var i: nat := 0;
    while i < attempts
      invariant attempts >= 0 ==> i <= attempts
      invariant attempts < 0 ==> i == 0
      invariant RetryFrom(task, s, i, attempts, last) == RetrySpec(task, s0, attempts)
    {
      var step := task(s);
      match step.out {
        case Ok(v) =>
          return Run(Returned(v), step.next, i + 1);
        case Err(e) =>
          last := Some(e);
          s := step.next;
      }
      i := i + 1;
    }
    run := Run(Rethrown(last), s, i);
  }

  /** Everything a run from call `i` does, stated against the calls it
      makes: it stops at the first success and returns that value, and
      otherwise makes every allowed call and rethrows the last error. */
  lemma {:induction false} RetryFromFacts<S, T>(task: S -> Step<S, T>, s0: S, i: nat, attempts: int,
                                                last: Option<Failure>)
    requires i <= attempts
    requires i == 0 ==> last == None
    requires i > 0 ==> OutcomeAt(task, s0, i - 1).Err?
                       && last == Some(OutcomeAt(task, s0, i - 1).error)
    ensures var run := RetryFrom(task, StateAfter(task, s0, i), i, attempts, last);
            && i <= run.calls <= attempts
            && run.state == StateAfter(task, s0, run.calls)
            && (forall j: nat :: i <= j < run.calls - 1 ==> OutcomeAt(task, s0, j).Err?)
            && (run.verdict.Returned? ==>
                  run.calls > i && OutcomeAt(task, s0, run.calls - 1) == Ok(run.verdict.value))
            && (run.verdict.Rethrown? ==>
                  && run.calls == attempts
                  && (attempts == 0 ==> run.verdict.last == None)
                  && (attempts > 0 ==> OutcomeAt(task, s0, attempts - 1).Err?
                                       && run.verdict.last == Some(OutcomeAt(task, s0, attempts - 1).error)))
    decreases attempts - i
  {
    if i < attempts {
      var step := task(StateAfter(task, s0, i));
      if step.out.Err? {
        RetryFromFacts(task, s0, i + 1, attempts, Some(step.out.error));
      }
    }
  }

  /** `retry` stops at the first success and returns its value: every
      earlier call threw, and the calls never exceed the budget. */
  lemma ReturnsFirstSuccess<S, T>(task: S -> Step<S, T>, s0: S, attempts: int)
    ensures var run := RetrySpec(task, s0, attempts);
            && run.calls <= (if attempts < 0 then 0 else attempts)
            && run.state == StateAfter(task, s0, run.calls)
            && (run.verdict.Returned? ==>
                  && run.calls >= 1
                  && OutcomeAt(task, s0, run.calls - 1) == Ok(run.verdict.value)
                  && forall j: nat :: j < run.calls - 1 ==> OutcomeAt(task, s0, j).Err?)
  {
    if attempts >= 0 {
      RetryFromFacts(task, s0, 0, attempts, None);
    }
  }

  /** When every allowed call throws, `retry` rethrows the error of the last
      call; with no allowed call it throws `undefined`. */
  lemma RethrowsLastError<S, T>(task: S -> Step<S, T>, s0: S, attempts: int)
    requires forall j: nat :: j < attempts ==> OutcomeAt(task, s0, j).Err?
    ensures var run := RetrySpec(task, s0, attempts);
            run.verdict == Rethrown(if attempts <= 0 then None
                                    else Some(OutcomeAt(task, s0, attempts - 1).error))
            && run.calls == (if attempts < 0 then 0 else attempts)
  {
    if attempts >= 0 {
      RetryFromFacts(task, s0, 0, attempts, None);
    }
  }

  /** A task that throws on its first `k` calls and then succeeds returns
      that success after exactly `k + 1` calls when the budget allows it,
      and otherwise rethrows the error of the last allowed call. */
  lemma FailThenSucceed<S, T>(task: S -> Step<S, T>, s0: S, k: nat, attempts: int)
    requires forall j: nat :: j < k ==> OutcomeAt(task, s0, j).Err?
    requires OutcomeAt(task, s0, k).Ok?
    ensures attempts >= k + 1 ==>
              RetrySpec(task, s0, attempts)
                == Run(Returned(OutcomeAt(task, s0, k).value), StateAfter(task, s0, k + 1), k + 1)
    ensures 0 < attempts <= k ==>
              RetrySpec(task, s0, attempts).verdict
                == Rethrown(Some(OutcomeAt(task, s0, attempts - 1).error))
  {
    ReturnsFirstSuccess(task, s0, attempts);
    if attempts >= k + 1 {
      RetryFromFacts(task, s0, 0, attempts, None);
    } else if attempts > 0 {
      RethrowsLastError(task, s0, attempts);
    }
  }
}

=== FILE: summary.dfy ===
/** The human-readable summary of the confirmation page
    (Automation.ts getLotterySummery: extractDataIgnoringSpans and
    getTextContentIgnoringSpans), over an abstract document tree. */
module Summary {
  import opened Errors
  import opened JsText

  /** A DOM node: a text node, an element with its tag name and children,
      or any other node (a comment, say), which carries no text here. */
  datatype Node = Text(data: string) | Element(tag: string, children: seq<Node>) | OtherNode

  /** One `dl` table: the children of its first `dt` element, if it has one,
      and the children of each of its `dd` elements, in document order. */
  datatype Table = Table(dt: Option<seq<Node>>, dds: seq<seq<Node>>)

  /** What one node adds to the text of its parent. */
  function NodeText(n: Node): string
    decreases n, 1
  {
    match n
    case Text(data) => Trim(data)
    case Element(tag, children) => if tag == "SPAN" then "" else ChildrenText(children)
    case OtherNode => ""
  }

  /** getTextContentIgnoringSpans applied to an element with these
      children: the texts of the children, concatenated in order. */
  function ChildrenText(children: seq<Node>): string
    decreases children, 0
  {
    if children == [] then "" else NodeText(children[0]) + ChildrenText(children[1..])
  }

  /** The text of a list of children is the text of its parts. */
  lemma {:induction false} ChildrenTextAppend(a: seq<Node>, b: seq<Node>)
    ensures ChildrenText(a + b) == ChildrenText(a) + ChildrenText(b)
    decreases |a|
  {
    if a == [] {
      assert a + b == b;
    } else {
      assert (a + b)[1..] == a[1..] + b;
      ChildrenTextAppend(a[1..], b);
    }
  }

  /** The text of the first `i + 1` children extends that of the first `i`. */
  lemma ChildrenTextSnoc(children: seq<Node>, i: nat)
    requires i < |children|
    ensures ChildrenText(children[..i + 1]) == ChildrenText(children[..i]) + NodeText(children[i])
  {
    ChildrenTextAppend(children[..i], [children[i]]);
    assert [children[i]][1..] == [];
    assert children[..i + 1] == children[..i] + [children[i]];
  }

  /** A SPAN child, whatever it holds, adds nothing. */
  lemma SpanAddsNothing(before: seq<Node>, span: seq<Node>, after: seq<Node>)
    ensures ChildrenText(before + [Element("SPAN", span)] + after)
            == ChildrenText(before + after)
  {
    ChildrenTextAppend(before + [Element("SPAN", span)], after);
    ChildrenTextAppend(before, [Element("SPAN", span)]);
    ChildrenTextAppend(before, after);
    assert [Element("SPAN", span)][..0] == [];
  }

  /** No element among these children, nor at any depth below them, is a SPAN. */
  predicate NoSpans(children: seq<Node>)
    decreases children
  {
    forall i :: 0 <= i < |children| ==>
      match children[i]
      case Element(tag, cs) => tag != "SPAN" && NoSpans(cs)
      case _ => true
  }

  /** The tree with every SPAN element removed, at every depth. */
  function WithoutSpans(children: seq<Node>): (r: seq<Node>)
    ensures forall i :: 0 <= i < |r| ==> !(r[i].Element? && r[i].tag == "SPAN")
    ensures NoSpans(r)
    decreases children
  {
    if children == [] then []
    else
      var rest := WithoutSpans(children[1..]);
      match children[0]
      case Element(tag, cs) =>
        if tag == "SPAN" then rest else [Element(tag, WithoutSpans(cs))] + rest
      case _ => [children[0]] + rest
  }

  /** Removing all SPAN subtrees does not change the text: whatever they
      hold never reaches the summary. */
  lemma {:induction false} WithoutSpansSameText(children: seq<Node>)
    ensures ChildrenText(WithoutSpans(children)) == ChildrenText(children)
    decreases children
  {
    if children != [] {
      var rest := WithoutSpans(children[1..]);
      WithoutSpansSameText(children[1..]);
      match children[0] {
        case Element(tag, cs) =>
          if tag != "SPAN" {
            WithoutSpansSameText(cs);
            var n := Element(tag, WithoutSpans(cs));
            assert ([n] + rest)[1..] == rest;
          }
        case Text(_) =>
          assert ([children[0]] + rest)[1..] == rest;
        case OtherNode =>
          assert ([children[0]] + rest)[1..] == rest;
      }
    }
  }

  /** getTextContentIgnoringSpans: walks the children of an element in
      order, adding the trimmed data of each text node and, recursively,
      the text of each element that is not a SPAN. */
  method TextContentIgnoringSpans(children: seq<Node>) returns (text: string)
    ensures text == ChildrenText(children)
    decreases children
  {
    text := "";
    var i := 0;
    while i < |children|
      invariant i <= |children|
      invariant text == ChildrenText(children[..i])
    {
      var node := children[i];
      ChildrenTextSnoc(children, i);
      match node {
        case Text(data) =>
          text := text + Trim(data);
        case Element(tag, cs) =>
          if tag != "SPAN" {
            var inner := TextContentIgnoringSpans(cs);
            text := text + inner;
          }
        case OtherNode =>
      }
      i := i + 1;
    }
    assert children[..i] == children;
  }

  /** The texts of the `dd` elements that are not empty, in order. */
  function NonEmptyTexts(dds: seq<seq<Node>>): (r: seq<string>)
    ensures |r| <= |dds|
  {
    if dds == [] then []
    else
      var rest := NonEmptyTexts(dds[..|dds| - 1]);
      var t := ChildrenText(dds[|dds| - 1]);
      if t == "" then rest else rest + [t]
  }

  /** Exactly the non-empty `dd` texts are kept: none of the kept ones is
      empty, every non-empty one is kept, and nothing is kept when all are
      empty. */
  lemma {:induction false} NonEmptyTextsFacts(dds: seq<seq<Node>>)
    ensures var r := NonEmptyTexts(dds);
            && (forall i :: 0 <= i < |r| ==> r[i] != "")
            && (forall i :: 0 <= i < |dds| && ChildrenText(dds[i]) != "" ==> ChildrenText(dds[i]) in r)
            && ((forall i :: 0 <= i < |dds| ==> ChildrenText(dds[i]) == "") <==> r == [])
  {
    if dds != [] {
      var init := dds[..|dds| - 1];
      var t := ChildrenText(dds[|dds| - 1]);
      var r0 := NonEmptyTexts(init);
      var r := NonEmptyTexts(dds);
      NonEmptyTextsFacts(init);
      assert r == if t == "" then r0 else r0 + [t];
      forall i | 0 <= i < |dds| && ChildrenText(dds[i]) != ""
        ensures ChildrenText(dds[i]) in r
      {
        if i < |dds| - 1 {
          assert init[i] == dds[i];
        }
      }
      if forall i :: 0 <= i < |dds| ==> ChildrenText(dds[i]) == "" {
        assert forall i :: 0 <= i < |init| ==> init[i] == dds[i];
        assert r == [];
      }
    }
  }

  /** The title of a table: the text of its `dt`, or empty without one. */
  function Title(t: Table): string
  {
    match t.dt
    case Some(children) => ChildrenText(children)
    case None => ""
  }

  /** The line a table adds to the summary. */
  function Line(t: Table): (line: string)
    ensures line != "" <==> Title(t) != "" && NonEmptyTexts(t.dds) != []
    ensures line == "" || line[|line| - 1] == '\n'
  {
    var title := Title(t);
    var content := NonEmptyTexts(t.dds);
    if title != "" && |content| > 0 then title + ": " + Join(content, ", ") + "\n" else ""
  }

  /** A table adds a line exactly when it has a non-empty title and some
      non-empty `dd` text; the line is the title, a colon, the non-empty
      texts separated by commas, and a line feed. */
  lemma LineShape(t: Table)
    ensures Line(t) != "" <==> Title(t) != "" && NonEmptyTexts(t.dds) != []
    ensures Line(t) != "" ==>
              && Title(t) <= Line(t)
              && Line(t)[|Line(t)| - 1] == '\n'
              && Line(t) == Title(t) + ": " + Join(NonEmptyTexts(t.dds), ", ") + "\n"
  {
  }

  /** The summary of a list of tables: their lines, in order. */
  function SummaryText(tables: seq<Table>): (text: string)
    ensures text == "" || text[|text| - 1] == '\n'
    ensures (forall k :: 0 <= k < |tables| ==> Line(tables[k]) == "") ==> text == ""
  {
    if tables == [] then ""
    else SummaryText(tables[..|tables| - 1]) + Line(tables[|tables| - 1])
  }

  /** A table without a title, or whose `dd` texts are all empty, adds
      nothing; any other table adds exactly its line at the end. */
  lemma SummaryAppend(tables: seq<Table>, t: Table)
    ensures SummaryText(tables + [t]) == SummaryText(tables) + Line(t)
    ensures (Title(t) == "" || forall i :: 0 <= i < |t.dds| ==> ChildrenText(t.dds[i]) == "")
            ==> SummaryText(tables + [t]) == SummaryText(tables)
  {
    assert (tables + [t])[..|tables|] == tables;
    NonEmptyTextsFacts(t.dds);
  }

  /** The texts of the `dd` elements, empty ones skipped. */
  method CollectContent(dds: seq<seq<Node>>) returns (content: seq<string>)
    ensures content == NonEmptyTexts(dds)
  {
    content := [];
    var d := 0;
    while d < |dds|
      invariant d <= |dds|
      invariant content == NonEmptyTexts(dds[..d])
    {
      var ddText := TextContentIgnoringSpans(dds[d]);
      if ddText != "" {
        content := content + [ddText];
      }
      assert dds[..d + 1][..d] == dds[..d];
      d := d + 1;
    }
    assert dds[..d] == dds;
  }

  /** One turn of the loop over the tables. */
  lemma ExtractStep(dls: seq<Table>, k: nat, title: string, content: seq<string>)
    requires k < |dls|
    requires title == Title(dls[k]) && content == NonEmptyTexts(dls[k].dds)
    ensures SummaryText(dls[..k + 1])
            == SummaryText(dls[..k])
               + (if title != "" && |content| > 0 then title + ": " + Join(content, ", ") + "\n" else "")
  {
    assert dls[..k + 1][..k] == dls[..k];
  }

  /** extractDataIgnoringSpans: the tables matched by the bottom-ruled
      selector, then those matched by the top-ruled one, each contributing
      its line to the accumulated text. */
  method ExtractSummary(bottomRuled: seq<Table>, topRuled: seq<Table>) returns (resultText: string)
    ensures resultText == SummaryText(bottomRuled + topRuled)
  {
    var dls := bottomRuled + topRuled;
    resultText := "";
    var k := 0;
    assert dls[..k] == [];
    while k < |dls|
      invariant k <= |dls|
      invariant resultText == SummaryText(dls[..k])
    {
      var dl := dls[k];
      var title := "";
      if dl.dt.Some? {
        title := TextContentIgnoringSpans(dl.dt.value);
      }
      var content := CollectContent(dl.dds);
      ExtractStep(dls, k, title, content);
      if title != "" && |content| > 0 {
        resultText := resultText + (title + ": " + Join(content, ", ") + "\n");
      }
      k := k + 1;
    }
    assert dls[..k] == dls;
  }
}

=== FILE: text.dfy ===
/** The JavaScript string operations the engine relies on, with the exact
    semantics the engine depends on: `split` on a one-character separator,
    `join`, `trim`, `replace` with a string pattern (first occurrence only),
    `slice` with negative indices, the `/^\d+$/` test and the decimal
    rendering of a counter. A character here is one Unicode scalar value. */
module JsText {

  /** Number of occurrences of `c` in `s`. */
  function Count(s: string, c: char): nat
  {
    if s == [] then 0 else (if s[0] == c then 1 else 0) + Count(s[1..], c)
  }

  lemma {:induction false} CountPositive(s: string, c: char)
    ensures Count(s, c) > 0 <==> c in s
  {
    if s != [] {
      CountPositive(s[1..], c);
      assert s == [s[0]] + s[1..];
    }
  }

  lemma {:induction false} CountAppend(a: string, b: string, c: char)
    ensures Count(a + b, c) == Count(a, c) + Count(b, c)
  {
    if a == [] {
      assert a + b == b;
    } else {
      assert (a + b)[1..] == a[1..] + b;
      CountAppend(a[1..], b, c);
    }
  }

  /** `parts.join(sep)`. */
  function Join(parts: seq<string>, sep: string): string
  {
    if |parts| == 0 then ""
    else if |parts| == 1 then parts[0]
    else parts[0] + sep + Join(parts[1..], sep)
  }

  /** `s.split(sep)` for a one-character separator: the pieces between
      consecutive separators, in order; there is always at least one. */
  function Split(s: string, sep: char): (parts: seq<string>)
    ensures |parts| == Count(s, sep) + 1
    ensures forall i :: 0 <= i < |parts| ==> sep !in parts[i]
    ensures Join(parts, [sep]) == s
  {
    if s == [] then [""]
    else
      var rest := Split(s[1..], sep);
      if s[0] == sep then
        assert s == [sep] + s[1..];
        [""] + rest
      else
        var parts := [[s[0]] + rest[0]] + rest[1..];
        assert |rest| > 1 ==> Join(rest, [sep]) == rest[0] + [sep] + Join(rest[1..], [sep]);
        assert parts[1..] == rest[1..];
        assert s == [s[0]] + s[1..];
        parts
  }

  /** A piece without the separator splits into itself. */
  lemma {:induction false} SplitPlain(a: string, sep: char)
    requires sep !in a
    ensures Split(a, sep) == [a]
  {
    if a != [] {
      SplitPlain(a[1..], sep);
      assert [a[0]] + a[1..] == a;
    }
  }

  /** Splitting a string that starts with a separator-free piece and a
      separator yields that piece followed by the split of the rest. */
  lemma {:induction false} SplitPrefix(a: string, sep: char, rest: string)
    requires sep !in a
    ensures Split(a + [sep] + rest, sep) == [a] + Split(rest, sep)
  {
    if a == [] {
      assert a + [sep] + rest == [sep] + rest;
      assert ([sep] + rest)[1..] == rest;
    } else {
      assert (a + [sep] + rest)[1..] == a[1..] + [sep] + rest;
      SplitPrefix(a[1..], sep, rest);
      assert [a[0]] + a[1..] == a;
    }
  }

  /** Round trip: joining separator-free pieces and splitting again gives
      the pieces back. */
  lemma {:induction false} SplitJoin(parts: seq<string>, sep: char)
    requires |parts| >= 1
    requires forall i :: 0 <= i < |parts| ==> sep !in parts[i]
    ensures Split(Join(parts, [sep]), sep) == parts
  {
    if |parts| == 1 {
      SplitPlain(parts[0], sep);
    } else {
      SplitJoin(parts[1..], sep);
      SplitPrefix(parts[0], sep, Join(parts[1..], [sep]));
      assert [parts[0]] + parts[1..] == parts;
    }
  }

  /** The characters `String.prototype.trim` removes: white space and line
      terminators of ECMAScript. */
  predicate IsJsSpace(c: char)
  {
    || c == ' ' || c == '\t' || c == '\n' || c == '\r'
    || c == '\U{000B}' || c == '\U{000C}' || c == '\U{00A0}' || c == '\U{1680}'
    || ('\U{2000}' <= c <= '\U{200A}')
    || c == '\U{2028}' || c == '\U{2029}' || c == '\U{202F}' || c == '\U{205F}'
    || c == '\U{3000}' || c == '\U{FEFF}'
  }

  predicate AllSpace(s: string)
  {
    forall i :: 0 <= i < |s| ==> IsJsSpace(s[i])
  }

  /** `s.trimStart()`: drops the leading white space. */
  function TrimStart(s: string): (r: string)
    ensures |r| <= |s|
  {
    if s != [] && IsJsSpace(s[0]) then TrimStart(s[1..]) else s
  }

  /** `s.trimEnd()`: drops the trailing white space. */
  function TrimEnd(s: string): (r: string)
    ensures |r| <= |s|
  {
    if s != [] && IsJsSpace(s[|s| - 1]) then TrimEnd(s[..|s| - 1]) else s
  }

  /** trimStart removes a white-space prefix and nothing else, and stops
      at the first other character. */
  lemma {:induction false} TrimStartFacts(s: string)
    ensures var r := TrimStart(s);
            && r == s[|s| - |r|..]
            && AllSpace(s[..|s| - |r|])
            && (r == [] || !IsJsSpace(r[0]))
  {
    if s != [] && IsJsSpace(s[0]) {
      TrimStartFacts(s[1..]);
      var r := TrimStart(s);
      assert s[..|s| - |r|] == [s[0]] + s[1..][..|s| - 1 - |r|];
    }
  }

  /** trimEnd removes a white-space suffix and nothing else, and stops at
      the last other character. */
  lemma {:induction false} TrimEndFacts(s: string)
    ensures var r := TrimEnd(s);
            && r == s[..|r|]
            && AllSpace(s[|r|..])
            && (r == [] || !IsJsSpace(r[|r| - 1]))
  {
    if s != [] && IsJsSpace(s[|s| - 1]) {
      TrimEndFacts(s[..|s| - 1]);
      var r := TrimEnd(s);
      assert s[|r|..] == s[..|s| - 1][|r|..] + [s[|s| - 1]];
    }
  }

  /** `s.trim()`: white space removed at both ends. */
  function Trim(s: string): (r: string)
    ensures |r| <= |s|
  {
    TrimEnd(TrimStart(s))
  }

  /** The trimmed text neither starts nor ends with white space. */
  lemma TrimBorder(s: string)
    ensures var r := Trim(s); r == [] || (!IsJsSpace(r[0]) && !IsJsSpace(r[|r| - 1]))
  {
    var t := TrimStart(s);
    TrimStartFacts(s);
    TrimEndFacts(t);
    var r := TrimEnd(t);
    if r != [] {
      assert r == t[..|r|];
    }
  }

  /** What trim removes is white space and nothing else: the result is the
      infix of `s` between a white-space prefix and a white-space suffix. */
  lemma TrimIsInfix(s: string)
    ensures var r := Trim(s);
            exists i :: 0 <= i <= |s| - |r| && r == s[i..i + |r|]
                        && AllSpace(s[..i]) && AllSpace(s[i + |r|..])
  {
    var t := TrimStart(s);
    TrimStartFacts(s);
    TrimEndFacts(t);
    var r := TrimEnd(t);
    var i := |s| - |t|;
    assert s[i..] == t;
    assert r == s[i..i + |r|];
    assert s[i + |r|..] == t[|r|..];
  }

  /** A string without white space at its ends is left unchanged by trim. */
  lemma TrimKeeps(s: string)
    requires s == [] || (!IsJsSpace(s[0]) && !IsJsSpace(s[|s| - 1]))
    ensures Trim(s) == s
  {
  }

  /** `s.indexOf(c)`: the position of the first occurrence of `c`, or -1. */
  function IndexOf(s: string, c: char): (i: int)
    ensures -1 <= i < |s|
    ensures i == -1 <==> c !in s
    ensures i >= 0 ==> s[i] == c && c !in s[..i]
  {
    if s == [] then -1
    else if s[0] == c then 0
    else
      var j := IndexOf(s[1..], c);
      assert s == [s[0]] + s[1..];
      if j == -1 then -1
      else
        assert s[..j + 1] == [s[0]] + s[1..][..j];
        j + 1
  }

  /** `s.replace(pattern, "")` for a one-character string pattern: only the
      FIRST occurrence is removed, so one fewer occurrence remains. */
  function RemoveFirst(s: string, c: char): (r: string)
    ensures |r| == if c in s then |s| - 1 else |s|
    ensures Count(r, c) == if Count(s, c) == 0 then 0 else Count(s, c) - 1
  {
    if s == [] then s
    else if s[0] == c then s[1..]
    else
      var r := [s[0]] + RemoveFirst(s[1..], c);
      assert r[1..] == RemoveFirst(s[1..], c);
      assert c in s <==> c in s[1..];
      r
  }

  /** The removed occurrence is the first one: what is left is the text
      before the first `c` followed by the text after it. */
  lemma {:induction false} RemoveFirstAt(s: string, c: char)
    requires c in s
    ensures var i := IndexOf(s, c); RemoveFirst(s, c) == s[..i] + s[i + 1..]
  {
    if s[0] != c {
      assert c in s[1..];
      RemoveFirstAt(s[1..], c);
    }
  }

  /** Without an occurrence nothing is removed. */
  lemma {:induction false} RemoveFirstAbsent(s: string, c: char)
    requires c !in s
    ensures RemoveFirst(s, c) == s
  {
    if s != [] {
      RemoveFirstAbsent(s[1..], c);
      assert s == [s[0]] + s[1..];
    }
  }

  /** Other characters are untouched by the removal. */
  lemma {:induction false} RemoveFirstKeepsOthers(s: string, c: char, d: char)
    requires d != c
    ensures Count(RemoveFirst(s, c), d) == Count(s, d)
  {
    if s != [] && s[0] != c {
      RemoveFirstKeepsOthers(s[1..], c, d);
      assert ([s[0]] + RemoveFirst(s[1..], c))[1..] == RemoveFirst(s[1..], c);
    }
  }

  /** The index `slice` uses for a relative position `k`: negative values
      count from the end, and the result is clamped to `[0, len]`. */
  function ClampIndex(k: int, len: nat): (r: nat)
    ensures r <= len
  {
    if k < 0 then (if len + k < 0 then 0 else len + k)
    else if k > len then len
    else k
  }

  /** `s.slice(start, end)`. */
  function Slice(s: string, start: int, end: int): (r: string)
    ensures |r| <= |s|
    ensures 0 <= start <= end <= |s| ==> r == s[start..end]
    ensures -|s| <= start <= end < 0 ==> r == s[|s| + start..|s| + end]
    ensures -|s| <= start < 0 && end == |s| ==> r == s[|s| + start..]
    ensures 0 <= start <= |s| + end && end < 0 ==> r == s[start..|s| + end]
    ensures start < -|s| && -|s| <= end < 0 ==> r == s[..|s| + end]
    ensures end <= -|s| ==> r == ""
  {
    var from, to := ClampIndex(start, |s|), ClampIndex(end, |s|);
    if from < to then s[from..to] else ""
  }

  /** `s.slice(start)`: the end defaults to the length. */
  function SliceFrom(s: string, start: int): string
  {
    Slice(s, start, |s|)
  }

  /** The test `/^\d+$/`: non-empty and made of ASCII digits only. */
  predicate IsDigits(s: string): (digits: bool)
    ensures digits <==> |s| > 0 && forall i :: 0 <= i < |s| ==> '0' <= s[i] <= '9'
  {
    assert forall i :: 0 <= i < |s| ==> s[i] in s;
    s != [] && forall c :: c in s ==> '0' <= c <= '9'
  }

  /** How a non-negative integer counter is rendered in a string. */
  function Decimal(n: nat): (r: string)
    ensures IsDigits(r)
    ensures |r| > 1 ==> r[0] != '0'
  {
    if n < 10 then [DigitChar(n)]
    else
      var hi := Decimal(n / 10);
      assert hi[0] != '0' by {
        if |hi| == 1 { assert hi == [DigitChar(n / 10)]; }
      }
      hi + [DigitChar(n % 10)]
  }

  function DigitChar(d: nat): (c: char)
    requires d < 10
    ensures '0' <= c <= '9'
  {
    ['0', '1', '2', '3', '4', '5', '6', '7', '8', '9'][d]
  }

  /** The value of a string of ASCII digits, read in base ten. */
  function DecimalValue(s: string): nat
    requires forall i :: 0 <= i < |s| ==> '0' <= s[i] <= '9'
  {
    if s == [] then 0
    else 10 * DecimalValue(s[..|s| - 1]) + (s[|s| - 1] as int - '0' as int)
  }

  /** Rendering a counter loses nothing: reading it back gives the counter. */
  lemma {:induction false} DecimalRoundTrip(n: nat)
    ensures DecimalValue(Decimal(n)) == n
  {
    if n >= 10 {
      DecimalRoundTrip(n / 10);
      var r := Decimal(n);
      assert r[..|r| - 1] == Decimal(n / 10);
    }
  }
}
